=== FILE: README.md ===
# Space-debris visualiser: a Dafny model of its core

This project models the computational core of a web visualiser for space debris and reentries:

- the map page (`main.js`):
  - the ground track of a reentered object over four orbital periods, sampled once a minute and split where it crosses the antimeridian;
  - the 3D orbit path;
  - the record filter with its removable filter chips;
  - the marker colours by year and the report's year slices;
  - the NORAD autocomplete and the small field helpers (`anio`, `numOrNull`, `valoresUnicos`);
- the live constellation view (`OrbitMonitor.jsx`): loading TLE rows, the class counts, and the positions of every satellite at one instant;
- the analytics dashboard (`GlobalAnalytics.jsx`): the orbit-versus-decay pie, the ten countries with the most objects, and launches per year;
- the reentry map (`ReentryMap.jsx`): the rows that can be plotted, marker colour and radius, and the class filter.

The SGP4/SDP4 propagation library is a black box. It is the record `Propagation.Sgp4` of function values, supplied by the caller. JavaScript numbers are `JsNum.Num`: NaN, the two infinities, or a finite value held as an exact real. Strings are sequences of Unicode code points, whereas JavaScript measures string length and `slice` in UTF-16 code units (see "## Left out").

Modules follow the program:

| module | file | models |
|---|---|---|
| `Epoch` | epoch.dfy | TLE year pivot, `Date.UTC`, epoch instant, minute steps |
| `Longitude` | longitude.dfy | `((lon + 180) % 360 + 360) % 360 - 180` |
| `Propagation` | propagation.dfy | the library boundary and the sampling window |
| `GroundTrack` | groundtrack.dfy | the loop of `mostrarTrayectoria` |
| `OrbitPath` | orbit3d.dfy | `plotOrbit` |
| `Region`, `DebrisFilter` | region.dfy, debrisfilter.dfy | `pointInBBox`, `filtrarDatos`, chips, `limpiarFiltro` |
| `Norad` | norad.dfy | `noradIndex`, `filtrarNorad` |
| `YearBuckets` | years.dfy | `anio`, `numOrNull`, `valoresUnicos`, `marcadorPorFecha`, report tallies |
| `OrbitMonitor` | monitor.dfy | `validSats`, stats, `getSatellitePositions` |
| `GlobalAnalytics`, `Counting` | analytics.dfy, counting.dfy | `getOrbitVsDecayData`, `getTopPolluters`, `getLaunchHistory` |
| `ReentryMap` | reentry.dfy | `validData`, `getMarkerIcon`, `filteredData` |
| `JsNum`, `JsText`, `Seqs`, `Wrappers` | jsnum.dfy, jstext.dfy, seqs.dfy, wrappers.dfy | JavaScript number and string semantics, filters over sequences, `Option` |

The ground track is stated twice. `GroundTrack.Trace` is the loop of `mostrarTrayectoria` as written. `GroundTrack.Track` is a pure pipeline: keep the accepted samples, split them into runs at the jumps, and drop runs of one point. The loop is proved equal to the pipeline, and `GroundTrack.RunsPartition` shows that the runs split the accepted points exactly at the jumps.

The longitude normalisation at main.js:641 yields [-180, 180), so 180 becomes -180 (`Longitude.AntimeridianIsWest`).

## Model

| member | source | states |
|---|---|---|
| Epoch.ResolveYear | main.js:629 | The full year is the only year in 1957..2056 whose last two digits are the TLE's `epochyr`. |
| Epoch.PivotBoundary | main.js:629 | 56 is read as 2056 and 57 as 1957. |
| Epoch.YearLength | main.js:630 | The day count behind `Date.UTC(year, 0, 1)` puts consecutive January firsts 366 days apart after a leap year and 365 otherwise. |
| Epoch.TimeClip | main.js:630 | `new Date(t)` is a valid date exactly when `t` is finite and within ±8.64e15 ms; it then holds `t` truncated toward zero. |
| Epoch.EpochInstant | main.js:628-630 | A non-finite `epochdays` gives an invalid date. A finite one gives a valid date exactly when its exact millisecond count lies within the `Date` range. The instant is that count cut to a whole millisecond toward zero: at most 1 ms earlier from 1970 on, at most 1 ms later before 1970. |
| Epoch.WholeDayEpoch | main.js:630 | Whole day number `d` is midnight UTC at the start of day `d` of the epoch year. |
| Epoch.EpochWithinYear | main.js:630 | A day of year inside the year gives a valid instant between that year's first and last midnight. |
| Epoch.EpochMonotone | main.js:630 | A later day of year never gives an earlier instant. |
| Epoch.AddMinutes | main.js:632 | Adding `m` minutes moves a valid date by `m` × 60000 ms. The result is invalid when the date was invalid or the sum leaves the `Date` range. |
| Longitude.Rem360 | main.js:641 | JavaScript `x % 360` keeps the dividend's sign, stays below one turn in magnitude, and names the same meridian. |
| Longitude.Normalise | main.js:641 | The normalised longitude lies in [-180, 180) and names the same meridian. A longitude already in that range is unchanged. |
| Longitude.NormaliseIdempotent | main.js:641 | Normalising twice gives the same result as normalising once. |
| Longitude.AntimeridianIsWest | main.js:641 | 180 becomes -180. |
| Propagation.SampleCount | main.js:631 | The loop `for (min = 0; min <= span; min++)` visits floor(span) + 1 offsets, and none when the span is negative. |
| Propagation.SampleCountMembership | main.js:631 | A minute offset is visited exactly when it lies in [0, span]. |
| Propagation.LoopSamples | main.js:624-631 | For a span that may not be finite: an infinite span (mean motion 0) never ends the loop; NaN and -Infinity visit nothing; a finite span visits `SampleCount` offsets. |
| Propagation.LoopSamplesMembership | main.js:631 | The count agrees with the loop test `min <= span` on every offset. When the loop never ends, every offset passes the test. |
| Propagation.NinetyMinuteWindow | main.js:626-628 | A 90-minute period over four revolutions gives 361 samples. |
| Propagation.SamplesOneMinuteApart | main.js:632 | For a valid epoch, consecutive sample instants are exactly 60000 ms apart. |
| GroundTrack.Accept | main.js:638-641 | A geodetic sample is accepted exactly when both angles are numbers and the latitude is within ±90. The accepted point keeps the latitude, lies on the map, and has a longitude on the same meridian. |
| GroundTrack.TrackPoints | main.js:631-641 | The accepted points of the first `n` minute offsets number at most `n`, and all lie on the map. |
| GroundTrack.TrackPointsNext | main.js:635-641 | A skipped sample leaves the points unchanged. An accepted one is appended after them. |
| GroundTrack.TrackPointsPrefix | main.js:631 | The points of a shorter window are a prefix of those of a longer one. |
| GroundTrack.Runs | main.js:642-650 | The runs are empty exactly when there are no points. |
| GroundTrack.RunsSnoc | main.js:642-650 | A new point opens a new run when it is the first point or jumps more than 30 degrees. Otherwise it extends the last run. |
| GroundTrack.RunsPartition | main.js:642-650 | The runs concatenate back to the points in order. Each run is non-empty, no step inside a run is a jump, and consecutive runs meet at a jump. |
| GroundTrack.KeepLong | main.js:645 | Exactly the runs of two points or more are kept, in order. |
| GroundTrack.SegmentsSmooth | main.js:643-644 | In a kept run, consecutive longitudes are at most 30 degrees apart. |
| GroundTrack.TrackShape | main.js:631-652 | Every drawn segment has at least two points, all on the map, with no step above 30 degrees. The drawn points are the accepted samples in sampling order. |
| GroundTrack.TrackingStep | main.js:642-650 | One accepted point, processed as the loop does, keeps the loop state equal to the state the runs describe. |
| GroundTrack.JumpStep | main.js:644-646 | On a jump the open segment is closed, and kept exactly when it has two points or more. |
| GroundTrack.TrackingDone | main.js:652 | Closing the open segment at the end yields the kept runs. |
| GroundTrack.ScanTracks | main.js:630-650 | The loop state after any sequence of accepted points is the state the runs describe. |
| GroundTrack.ScanIsSplit | main.js:630-652 | The fold the loop performs equals the filter-then-split track. |
| GroundTrack.Sample | main.js:632-650 | One minute of the loop turns the state after `m` offsets into the state after `m + 1`. |
| GroundTrack.Trace | main.js:630-652 | The loop's segments are exactly the ground track, each with at least two points. |
| GroundTrack.Close | main.js:652 | After the last sample, closing the open segment yields the ground track. |
| GroundTrack.ThirtyDegreesJoin | main.js:643-644 | A 30-degree step stays in one segment: the threshold is strict. |
| GroundTrack.ThirtyOneDegreesSplit | main.js:643-645 | A 31-degree step between two points splits them, and two one-point segments draw nothing. |
| GroundTrack.NoPositionNoTrack | main.js:635 | A satellite that yields no position at any sample has no ground track. |
| OrbitPath.SceneRoundTrip | main.js:745 | The axis remap `(x, z, -y)` has an inverse, so no information is lost. |
| OrbitPath.ToSceneKeepsRadius | main.js:745 | The remap keeps distances from the Earth's centre. |
| OrbitPath.ToSceneInjective | main.js:745 | Distinct positions stay distinct in the scene. |
| OrbitPath.ToSceneLinear | main.js:745 | The remap commutes with sums and scaling, so straight segments stay straight. |
| OrbitPath.Path | main.js:738-746 | The path of the first `n` offsets has at most `n` points. |
| OrbitPath.PathNext | main.js:738-746 | A failed propagation adds nothing. A success appends its remapped position. |
| OrbitPath.PathPrefix | main.js:738 | A shorter window's path is a prefix of a longer one's. |
| OrbitPath.PathFromPropagator | main.js:739-745 | Every point of the path is the remap of a position the propagator returned at a visited offset. |
| OrbitPath.NoPositionNoPath | main.js:742 | Where the propagator never yields a position, the path is empty. |
| OrbitPath.TrackNoLongerThanPath | main.js:738-746 | The ground track never has more accepted points than the 3D path over the same window. |
| OrbitPath.PlotOrbit | main.js:730-751 | The loop's points are the path of the window. A line is added exactly when there are more than one point. |
| Region.PointInBBox | main.js:360-373 | With no bound set everything passes. Otherwise a missing coordinate fails, and a point that passes respects each finite latitude bound inclusively. |
| Region.FiniteBox | main.js:363-367 | With finite bounds and `lonMin <= lonMax`, a point passes exactly when both coordinates lie between their bounds, inclusive. |
| Region.WrapIsUnion | main.js:366-368 | When `lonMin > lonMax` the box is the union of the two half-boxes on either side of the antimeridian. |
| Region.PlainIsIntersection | main.js:366-367 | An ordinary box is the intersection of its two half-boxes. |
| Region.NaNLatBoundIgnored | main.js:360-363 | A NaN latitude bound rejects nothing by itself. |
| Region.AntimeridianBox | main.js:368 | A box from 170 to -170 covers 180, -180 and 170, and excludes 0. |
| DebrisFilter.KeepIsConjunction | main.js:382-399 | A record is kept exactly when every criterion that is not switched off accepts it. |
| DebrisFilter.Filtrar | main.js:375-401 | The result holds exactly the records every enabled criterion accepts. |
| DebrisFilter.FiltrarIsSubseq | main.js:382 | The filter keeps the records' order. |
| DebrisFilter.DisablingWidens | main.js:383-398 | Switching more chips off never hides a record. |
| DebrisFilter.AllDisabledShowsAll | main.js:383-398 | With every chip off, every record is shown. |
| DebrisFilter.BlankFormShowsAll | main.js:383-398 | The blank form shows every record. |
| DebrisFilter.ClearFilter | main.js:1148-1158 | Clearing criterion `k` leaves every other criterion unchanged, and `k` then accepts every record. |
| DebrisFilter.DisabledIsIrrelevant | main.js:383-398 | The fields of a switched-off criterion do not affect the result. |
| DebrisFilter.RemoveIsDisable | main.js:1136-1140 | Removing a chip shows the same records as switching it off. |
| DebrisFilter.Toggle | main.js:1143 | A click switches exactly the clicked criterion. |
| DebrisFilter.ToggleTwice | main.js:1143 | Two clicks on the same chip restore the filter. |
| DebrisFilter.RemoveChip | main.js:1136-1140 | The removed criterion is switched on, every other chip keeps its state, and the criterion now accepts every record. |
| DebrisFilter.ConstellationExamples | main.js:391-396 | "No" and "NoConstelacion" in any case, an empty value and a missing value all mean "not in a constellation". |
| Norad.ToEntry | main.js:292-297 | A record has an entry exactly when one of its four number fields is present and non-empty. The entry's number is that field, trimmed. |
| Norad.BuildIndex | main.js:291-298 | Every entry is the entry of some record, with that record's number, country, class and name. Every record with a catalogue number has its entry in the index. |
| Norad.BuildIndexOne | main.js:291-298 | A single record gives its own entry, or nothing when it has no catalogue number. |
| Norad.BuildIndexSplit | main.js:291-298 | The index of two batches of records is the first batch's index followed by the second's. With `BuildIndexOne` this fixes one entry per numbered record, in record order. |
| Norad.BuildIndexCount | main.js:291-298 | The index has one entry for each record with a catalogue number. |
| Norad.FiltrarNorad | main.js:1293-1305 | A blank query gives nothing. An all-digit query gives the entries whose number starts with it. Any other query gives the entries whose name, class or country contains it, ignoring case. |
| Norad.FiltrarNoradIsSubseq | main.js:1297-1304 | Suggestions keep the index's order. |
| Norad.ToLowerIdempotent | main.js:1299 | Lower-casing twice gives the same result as once. |
| Norad.LowerCharWhiteSpace | main.js:1294-1299 | Lower-casing keeps white space and makes none. |
| Norad.TrimToLower | main.js:1294-1299 | Trimming and lower-casing commute. |
| Norad.AllDigitsToLower | main.js:1296-1299 | Lower-casing keeps a text all-digit exactly when it was all-digit, and leaves digit texts unchanged. |
| Norad.QueryCaseIrrelevant | main.js:1293-1305 | A query and its lower-cased form get the same suggestions. |
| Norad.DigitQuery | main.js:1296-1297 | An all-digit query is used as it stands, as a prefix. |
| YearBuckets.First4 | main.js:306 | `slice(0, 4)` is a prefix of at most four characters, exactly four when the text has them. |
| YearBuckets.Anio | main.js:306 | A missing or empty date has no year, and a year read is within four digits. |
| YearBuckets.AnioOfIsoDate | main.js:306 | A date whose first four characters are digits has the year those digits spell, place by place. |
| YearBuckets.AnioExample | main.js:306 | "2019-05-04" is 2019, and an empty or missing date is null. |
| YearBuckets.AnioOf2026 | main.js:306 | Any date starting "2026" is read as 2026. |
| YearBuckets.NumOrNull | main.js:307 | The result is a number exactly when the field is present, not empty, and `Number` gives a finite value. It is then that value. |
| YearBuckets.NumOrNullKeepsFinite | main.js:307 | A finite number, or a text that reads as one, passes through unchanged. NaN, the infinities and unreadable text become null. |
| YearBuckets.NumOrNullIdempotent | main.js:307 | Applying `numOrNull` to its own result changes nothing. |
| YearBuckets.NullIsNotZero | main.js:307 | A null field is null, although `Number(null)` is 0. An undefined field is null too, and `Number(undefined)` is NaN. |
| YearBuckets.ValoresUnicos | main.js:305 | The result holds each present, non-empty value exactly once, and nothing else. |
| YearBuckets.MarkerYearIsAnio | main.js:404 | The marker reads the same year as `anio`. |
| YearBuckets.MarkerFor | main.js:403-409 | Blue exactly for 2004-2010, green for 2011-2017, red for 2018-2026, and yellow otherwise, including a missing year. |
| YearBuckets.TramoOf | main.js:849-856 | Each year lies in exactly one slice: 2004-2010, 2011-2017, 2018-2025, or "Antes de 2004" for everything else, including a missing year. |
| YearBuckets.CanvasMatchesPie | main.js:1024-1028 | The canvas snapshot paints each record in the colour of its pie slice. |
| YearBuckets.Slices | main.js:850-851 | Each record gets the slice of its year, in order. |
| YearBuckets.Tally | main.js:849-856 | The slice counts add up to the number of records, and each count is the number of records in that slice. |
| YearBuckets.TallyGet | main.js:849-856 | Each slice of the tally counts the records whose year falls in it. |
| YearBuckets.ReportClasses | main.js:871-872 | Each record is counted under its class, or "Desconocido", in order. |
| YearBuckets.ReportClassesMembers | main.js:871-872 | Every record's class is among the bars, and no bar is the empty text. |
| YearBuckets.ClassBars | main.js:870-874 | There is one bar per class, with distinct keys and no empty bar. Each bar's height is the number of records of its class, and every record's class has a bar. |
| YearBuckets.MarkerAgreesExcept2026 | main.js:403-409 | Marker and slice agree for every year except 2026. |
| YearBuckets.Year2026Mismatch | main.js:407 | A 2026 record is drawn red, yet counted in "Antes de 2004". |
| YearBuckets.MarkerForLegend | main.js:576-581 | With the legend's ranges, the marker is the colour of the record's slice. |
| YearBuckets.LegendMarkerDeterminesSlice | main.js:576-581 | With the legend's ranges, two records share a marker exactly when they share a slice. |
| OrbitMonitor.ParseRow | space-watch-suite/src/modules/OrbitMonitor.jsx:37-53 | A row yields a satellite exactly when its trimmed TLE lines parse. The name and class fall back to "Unknown". The NORAD id is `NORAD_CAT_ID`, or `norad_id` when that is missing or empty. |
| OrbitMonitor.Candidates | space-watch-suite/src/modules/OrbitMonitor.jsx:34-36 | At most 3000 rows are kept, and each has both TLE lines. |
| OrbitMonitor.Cap | space-watch-suite/src/modules/OrbitMonitor.jsx:36 | `slice(0, n)` is a prefix: all elements when there are at most `n`, otherwise exactly `n`. |
| OrbitMonitor.CapOfLonger | space-watch-suite/src/modules/OrbitMonitor.jsx:36 | Once the first part fills the cap, what follows is cut off. |
| OrbitMonitor.LoadSatellites | space-watch-suite/src/modules/OrbitMonitor.jsx:34-54 | At most 3000 satellites are loaded, each parsed from a row with both TLE lines. |
| OrbitMonitor.CapIgnoresLaterRows | space-watch-suite/src/modules/OrbitMonitor.jsx:35-36 | Rows after the first 3000 with TLE lines are never looked at. |
| OrbitMonitor.CandidatesCapped | space-watch-suite/src/modules/OrbitMonitor.jsx:35-36 | Rows after the first 3000 with TLE lines do not change the candidates. |
| OrbitMonitor.LoadSplits | space-watch-suite/src/modules/OrbitMonitor.jsx:37-54 | Under the cap, a parse failure costs only its own row: two batches load as each batch, in order. |
| OrbitMonitor.AllParsedLoaded | space-watch-suite/src/modules/OrbitMonitor.jsx:37-54 | Under the cap, every row that parses yields a loaded satellite. |
| OrbitMonitor.CountWhere | space-watch-suite/src/modules/OrbitMonitor.jsx:58-59 | The count is the number of satellites satisfying the test. It is 0 exactly when none do, and the total exactly when all do. |
| OrbitMonitor.StatsOf | space-watch-suite/src/modules/OrbitMonitor.jsx:58-65 | `total` is the number of satellites. `payload` counts the classes containing "Payload", and `debris` those containing "Debris" or "Rocket". |
| OrbitMonitor.StatsAdd | space-watch-suite/src/modules/OrbitMonitor.jsx:58-65 | The counts of two batches add up, since each satellite is counted on its own class. |
| OrbitMonitor.StatsMayOverlap | space-watch-suite/src/modules/OrbitMonitor.jsx:58-59 | A class naming both "Payload" and "Debris" is counted twice, so the counts are not a partition. |
| OrbitMonitor.PositionOf | space-watch-suite/src/modules/OrbitMonitor.jsx:82-108 | A position exists exactly when propagation yields one. Its angles are the library's, unchecked. Its altitude is the geodetic height divided by the Earth radius of 6371 km. Name, class and NORAD id are the satellite's. Its colour is cyan exactly for a payload and magenta otherwise. |
| OrbitMonitor.Positions | space-watch-suite/src/modules/OrbitMonitor.jsx:80-110 | Every entry is the position of some satellite at the shared instant, and every satellite that propagates has its entry. |
| OrbitMonitor.PositionsSplit | space-watch-suite/src/modules/OrbitMonitor.jsx:81-109 | Satellites are evaluated independently: a fleet's positions are those of its parts, in order. |
| OrbitMonitor.PositionsCount | space-watch-suite/src/modules/OrbitMonitor.jsx:81-109 | There is one entry per satellite that has a position. |
| ReentryMap.ParseField | space-watch-suite/src/modules/ReentryMap.jsx:40-41 | A missing or empty field reads as NaN. Otherwise it reads as the caller's `parseFloat` of the text. |
| ReentryMap.OnMapIsFiniteRange | space-watch-suite/src/modules/ReentryMap.jsx:42 | The test passes exactly for finite coordinates in range: infinities fail the range test as NaN fails the number test. |
| ReentryMap.ValidData | space-watch-suite/src/modules/ReentryMap.jsx:39-43 | A row is kept exactly when its fall point has a finite latitude in [-90, 90] and a finite longitude in [-180, 180]. |
| ReentryMap.ValidDataStable | space-watch-suite/src/modules/ReentryMap.jsx:39-43 | Kept rows keep their order, and a second pass drops nothing. |
| ReentryMap.MissingLatitudeDropped | space-watch-suite/src/modules/ReentryMap.jsx:40-42 | A row with no fall latitude is never drawn. |
| ReentryMap.ClassName | space-watch-suite/src/modules/ReentryMap.jsx:59 | `clase_objeto` when present. Otherwise `OBJECT_CLASS` when present. Otherwise "Unknown". The result is never empty. |
| ReentryMap.MarkerColor | space-watch-suite/src/modules/ReentryMap.jsx:60 | A class in the colour table gets its own colour. Any other class gets the "Unknown" colour. |
| ReentryMap.ColorsTellClassesApart | space-watch-suite/src/modules/ReentryMap.jsx:15-20 | Two classes of the table share a colour exactly when they are the same class. |
| ReentryMap.OtherClassesLookUnknown | space-watch-suite/src/modules/ReentryMap.jsx:60 | A class looks like "Unknown" exactly when the table lacks it or it is "Unknown". |
| ReentryMap.Mass | space-watch-suite/src/modules/ReentryMap.jsx:61 | With `masa_en_orbita` present the mass is that text, parsed. Otherwise, with `MASS` present, it is that text, parsed. With neither it is 100. |
| ReentryMap.Radius | space-watch-suite/src/modules/ReentryMap.jsx:62 | The radius is NaN exactly when the mass is NaN, -Infinity or below -1. Otherwise it lies in [8, 20]. |
| ReentryMap.MarkerIcon | space-watch-suite/src/modules/ReentryMap.jsx:58-70 | The icon has the class colour and the clamped radius. A row without mass gets a radius in [8, 20]. |
| ReentryMap.FilteredData | space-watch-suite/src/modules/ReentryMap.jsx:72-77 | "all" returns the data unchanged. Any other choice keeps exactly the rows of that class. |
| ReentryMap.FilteredIsSubseq | space-watch-suite/src/modules/ReentryMap.jsx:72-77 | Filtered rows keep their order, so the "Filtered" count never exceeds "Total Reentries". |
| ReentryMap.FilterClassIdempotent | space-watch-suite/src/modules/ReentryMap.jsx:72-77 | Choosing a class twice gives the same rows as choosing it once. |
| GlobalAnalytics.OrbitVsDecay | space-watch-suite/src/modules/GlobalAnalytics.jsx:65-70 | Two slices, "Active in Orbit" then "Reentered/Decayed", valued at the row counts of the orbit and reentered catalogues. |
| GlobalAnalytics.CountryOf | space-watch-suite/src/modules/GlobalAnalytics.jsx:75 | A row's country is `COUNTRY_CODE` when present. Otherwise it is `pais` when present. Otherwise it is "Unknown". It is never empty. |
| GlobalAnalytics.Countries | space-watch-suite/src/modules/GlobalAnalytics.jsx:74-75 | There is one country per row, in order. |
| GlobalAnalytics.Ranking | space-watch-suite/src/modules/GlobalAnalytics.jsx:79-81 | Countries appear in non-increasing count order, each once, with its exact number of rows. Every country appears. |
| GlobalAnalytics.TopPolluters | space-watch-suite/src/modules/GlobalAnalytics.jsx:72-83 | At most ten countries, in non-increasing count order, each once, with its exact number of rows. |
| GlobalAnalytics.TopPollutersAreTop | space-watch-suite/src/modules/GlobalAnalytics.jsx:79-82 | A country left out occurs no more often than any shown, and is left out only when ten are already shown. |
| GlobalAnalytics.LeftOutOfPrefix | space-watch-suite/src/modules/GlobalAnalytics.jsx:81-82 | In a ranking, an entry outside the first ten counts no more than any entry in them. |
| GlobalAnalytics.LaunchYear | space-watch-suite/src/modules/GlobalAnalytics.jsx:88-91 | A row has a year text exactly when its launch date starts with four characters free of "-" that are followed by "-" or end the date. The year text is those four characters. |
| GlobalAnalytics.YearKeys | space-watch-suite/src/modules/GlobalAnalytics.jsx:86-95 | Every text has four characters. Each text occurs once for each row whose year text it is. |
| GlobalAnalytics.OccurrencesOfFilterMap | space-watch-suite/src/modules/GlobalAnalytics.jsx:88-93 | A key occurs among the results of a partial map once for each element mapped to it, which is how `yearCounts` counts each row once under its year. |
| GlobalAnalytics.ToYearCount | space-watch-suite/src/modules/GlobalAnalytics.jsx:98-100 | An entry is kept exactly when decimal `parseInt` reads its key as a year in 1957..2025, with its count. The keys passed in have four characters, where decimal and radix-less `parseInt` agree on that range. |
| GlobalAnalytics.YearCounts | space-watch-suite/src/modules/GlobalAnalytics.jsx:97-100 | Each in-range year appears once, with the number of rows of its text, and every in-range year text is represented. |
| GlobalAnalytics.SameYearSameKey | space-watch-suite/src/modules/GlobalAnalytics.jsx:91-98 | Two four-character texts that `parseInt` reads as the same in-range year are the same text. |
| GlobalAnalytics.StrictlyAscending | space-watch-suite/src/modules/GlobalAnalytics.jsx:99 | An ascending history with no year twice is strictly ascending. |
| GlobalAnalytics.LaunchHistory | space-watch-suite/src/modules/GlobalAnalytics.jsx:85-101 | Years are strictly ascending within 1957..2025, each with the number of rows of its year text. Every in-range year text of the data appears. |
| Counting.Bump | space-watch-suite/src/modules/GlobalAnalytics.jsx:76 | Incrementing keeps keys distinct and adds exactly the counted key. |
| Counting.BumpCounts | space-watch-suite/src/modules/GlobalAnalytics.jsx:76 | `counts[k] = (counts[k] \|\| 0) + 1` adds one to `k`'s count and leaves every other count alone. |
| Counting.Tally | space-watch-suite/src/modules/GlobalAnalytics.jsx:73-77 | There is one entry per distinct key, each counting that key's occurrences. |
| Counting.TallyCounts | space-watch-suite/src/modules/GlobalAnalytics.jsx:73-77 | Each tally entry counts its key's occurrences. |
| Counting.SortBy | space-watch-suite/src/modules/GlobalAnalytics.jsx:81 | The sort returns the same elements, as a multiset, in ascending key order. |
| Counting.InsertByPermutes | space-watch-suite/src/modules/GlobalAnalytics.jsx:81 | Inserting adds exactly the one element. |
| Counting.SortByDistinct | space-watch-suite/src/modules/GlobalAnalytics.jsx:81 | Sorting keeps distinct elements distinct. |
| JsText.ParseInt | main.js:306 | A value `parseInt` reads from a text of `n` characters is below 10^n in magnitude. |
| JsText.DigitsParse | main.js:306 | On a text made only of digits, `parseInt` is its decimal value. |
| JsText.TrimStart | main.js:1294 | `trimStart` removes exactly the leading white space. |
| JsText.TrimEnd | main.js:1294 | `trimEnd` removes exactly the trailing white space. |
| JsText.BeforeFirst | space-watch-suite/src/modules/GlobalAnalytics.jsx:90 | `split('-')[0]` is the text before the first "-", or all of it. |
| JsNum.Less | main.js:363-371 | JavaScript `<` is false when either side is NaN, and is the order of the reals on finite values. |

## Left out
- `GlobalAnalytics.ToYearCount`: GlobalAnalytics.jsx:98 calls `parseInt(year)` without a radix, so a "0x" prefix reads as hexadecimal. `JsText.ParseInt` is decimal only. Keys with four characters cannot differ on 1957..2025, since the largest four-character hex text "0xFF" is 255, and `YearCounts` only passes such keys. Called directly on a longer key such as "0x7D1", the source keeps 2001 while the model drops it.
- String lengths: a Dafny `char` is a Unicode code point, while `slice(0, 4)` (main.js:306, 404) and `year.length === 4` (GlobalAnalytics.jsx:91) count UTF-16 code units. A date beginning with a character outside the Basic Multilingual Plane (two code units) is cut and measured differently. Such dates are not modelled.

- `Norad.FiltrarNorad`: case folding covers ASCII letters only (`JsText.ToLower`). JavaScript `toLowerCase` folds all of Unicode, so a query "españa" finds a country "ESPAÑA" in the source but not in the model. Unicode case mapping tables are outside the model.
- `Propagation.SampleCount`: the sampling span is a finite real. The period `1440 / (no · 1440 / 2π)` (main.js:624-627) is not computed, because it is floating-point work on the library's mean motion. A mean motion of 0 gives an infinite span and a loop that never ends. A NaN mean motion gives no samples. Only `Propagation.LoopSamples` states these two cases; `GroundTrack.Trace` and `OrbitPath.PlotOrbit` take a finite period.
- `Epoch.EpochInstant`: `epochyr` is a two-digit integer. A NaN `epochyr`, which gives an invalid epoch `Date` at main.js:629-630 and 736, cannot be expressed.
- `GlobalAnalytics.LaunchHistory`: the result is stated as strictly ascending. The source relies on two things to get that order:
  - `Object.entries` lists array-index keys first, in ascending order. Every kept year is one, since it is four digits read as 1957..2025.
  - It sorts before filtering, with a comparator that is NaN for keys `parseInt` cannot read.

  When such keys are present, ECMAScript leaves the sort order to the implementation. The model sorts only the in-range entries.
- `GlobalAnalytics.TopPolluters`: ties are ordered by first appearance. For country keys that are array indices ("1", "42"), `Object.entries` would list them first, in ascending order. So among tied counts, which country is cut at ten may differ from the source.
- `Counting.Tally`: keys are listed in order of first appearance, not in the index-first order of `Object.entries`.
- `YearBuckets.ValoresUnicos`: the final sort by `localeCompare(…, 'es')` (main.js:305) is not modelled, because Spanish collation is a locale table. The result is in first-appearance order: the same values, each once, in a different order.
- `ReentryMap.Radius`: `Math.log` is a caller-supplied function. Only the clamp to [8, 20] and the NaN cases are stated, not the value inside the band.
- `GlobalAnalytics.OrbitVsDecay`: the pie values are the two catalogues' row counts (GlobalAnalytics.jsx:40-41). The zero state shown before loading finishes is not modelled.
- The mass totals (GlobalAnalytics.jsx:36-37, 42-43) are left out, as floating-point sums of `parseFloat` values with `Math.round`.
- Two report charts are left out: the per-class mass bars (main.js:888-892) and the time-in-orbit pie (main.js:915-923). They depend on `getMasaReingresadaKg` and `getDiasEnOrbita`, which are not part of this model, and on floating-point sums.
- The heat-map intensity (main.js:468-483) is left out as floating-point work.
- The SGP4/SDP4 library (`twoline2satrec`, `propagate`, `gstime`, `eciToGeodetic`, `degreesLat`, `degreesLong`) is caller-supplied function values. ECI components are finite reals. The map page's `satrec` is an input. `OrbitMonitor.jsx`'s parse is a parameter that returns `None` where it throws.
- Text-to-number conversions (`Number` of text, `parseFloat`) and `Math.log` are parameters. Finite numbers are exact reals, so IEEE rounding is not modelled.
- The guard of `mostrarTrayectoria` that alerts when a record has no TLE lines (main.js:603-604) is left out as user interface.
- Rendering and I/O are left out. This covers:
  - Leaflet, Three.js, Globe and Chart.js drawing;
  - the legends, the chips' HTML (`construirChipsFiltros`), translations, PDF export and local storage;
  - `fetch` and `Papa.parse` loading;
  - timers: `setInterval` in `OrbitMonitor.jsx` and the animation loop;
  - the backend (`server.js`, `db.js`, `email.js`), `unificar_reportes.py`, `RiskCollision.jsx` and `App.jsx`.
- Colour lookups read `CLASS_COLORS[className]` as a map. The source's object lookup also sees inherited properties such as "constructor". A class with that name is not modelled.
- `Counting.Tally`, `YearBuckets.ClassBars`: the tallies `countryCounts` (GlobalAnalytics.jsx:76), `yearCounts` (GlobalAnalytics.jsx:92) and `clases` (main.js:870-874) are modelled as lists of text keys with counts. In the source they are plain objects. A key named "__proto__" sets the prototype instead of a count, and a key such as "constructor" starts from an inherited function rather than 0. Such keys are not modelled.

## Findings

| source | as written | input that shows it | evidently intended | confidence | as-written member | corrected member |
|---|---|---|---|---|---|---|
| main.js:407 | `marcadorPorFecha` paints years 2018 to 2026 red. | A record dated "2026-01-15" gets a red marker, which the legend labels "2018 a 2025". The report's year pie and the canvas snapshot count it in "Antes de 2004". | Red for 2018-2025, as the legend (main.js:580), the report slices (main.js:854) and the canvas (main.js:1028) say. | medium, not executed | YearBuckets.MarkerFor, YearBuckets.Year2026Mismatch | YearBuckets.MarkerForLegend, YearBuckets.LegendMarkerDeterminesSlice |

=== FILE: analytics.dfy ===
/** The analytics dashboard (`GlobalAnalytics`): the orbit-versus-decay pie,
    the ten countries with the most catalogued objects, and the number of
    launches per year. */
module GlobalAnalytics {
  import opened Wrappers
  import opened JsText
  import opened Seqs
  import opened Counting

  /** The fields of a catalogue row the charts read; `None` when absent. */
  datatype Item = Item(
    countryCode: Option<string>, pais: Option<string>,
    launchDate: Option<string>, lanzamiento: Option<string>)

  /** One slice of the orbit-versus-decay pie. */
  datatype Slice = Slice(name: string, value: nat)

  /** `getOrbitVsDecayData`: the objects still in orbit and those reentered,
      as the row counts of the two catalogues. */
  function OrbitVsDecay<T, U>(orbit: seq<T>, reentered: seq<U>): (pie: seq<Slice>)
    ensures |pie| == 2
    ensures pie[0].name == "Active in Orbit" && pie[0].value == |orbit|
    ensures pie[1].name == "Reentered/Decayed" && pie[1].value == |reentered|
  {
    [Slice("Active in Orbit", |orbit|), Slice("Reentered/Decayed", |reentered|)]
  }

  /** The country a row is counted under: `COUNTRY_CODE || pais || 'Unknown'`. */
  function CountryOf(item: Item): (c: string)
    ensures |c| > 0
    ensures Truthy(item.countryCode) ==> c == item.countryCode.value
    ensures !Truthy(item.countryCode) && Truthy(item.pais) ==> c == item.pais.value
    ensures !Truthy(item.countryCode) && !Truthy(item.pais) ==> c == "Unknown"
  {
    OrElse(Either(item.countryCode, item.pais), "Unknown")
  }

  /** The country of every row, in order. */
  function Countries(items: seq<Item>): (cs: seq<string>)
    ensures |cs| == |items|
    ensures forall i :: 0 <= i < |items| ==> cs[i] == CountryOf(items[i])
  {
    seq(|items|, i requires 0 <= i < |items| => CountryOf(items[i]))
  }

  /** How many entries the ranking shows. */
  const TopCount := 10

  /** The sort key of `(a, b) => b.count - a.count`: larger counts first. */
  function ByCountDesc(): Entry -> int {
    (e: Entry) => -(e.count as int)
  }

  function KeyOf(): Entry -> string {
    (e: Entry) => e.key
  }

  /** The countries ranked by how many rows name them, the most frequent
      first and ties in order of first appearance. */
  function Ranking(keys: seq<string>): (r: seq<Entry>)
    ensures forall i, j :: 0 <= i < j < |r| ==> r[i].count >= r[j].count
    ensures DistinctKeys(r)
    ensures forall e :: e in r ==> e.key in keys && e.count == Occurrences(keys, e.key)
    ensures forall k :: k in keys ==> k in Keys(r)
  {
    var es := Tally(keys);
    var r := SortBy(ByCountDesc(), es);
    Descending(r);
    RankingDistinct(es);
    RankingMembers(keys);
    r
  }

  lemma Descending(s: seq<Entry>)
    requires SortedBy(ByCountDesc(), s)
    ensures forall i, j :: 0 <= i < j < |s| ==> s[i].count >= s[j].count
  {
    forall i, j | 0 <= i < j < |s|
      ensures s[i].count >= s[j].count
    {
      assert ByCountDesc()(s[i]) <= ByCountDesc()(s[j]);
    }
  }

  lemma RankingDistinct(es: seq<Entry>)
    requires DistinctKeys(es)
    ensures DistinctKeys(SortBy(ByCountDesc(), es))
  {
    assert DistinctBy(KeyOf(), es);
    SortByDistinct(ByCountDesc(), KeyOf(), es);
    var r := SortBy(ByCountDesc(), es);
    assert DistinctBy(KeyOf(), r);
  }

  lemma RankingMembers(keys: seq<string>)
    ensures forall e :: e in SortBy(ByCountDesc(), Tally(keys)) ==> e.key in keys && e.count == Occurrences(keys, e.key)
    ensures forall k :: k in keys ==> k in Keys(SortBy(ByCountDesc(), Tally(keys)))
  {
    var es := Tally(keys);
    var r := SortBy(ByCountDesc(), es);
    TallyCounts(keys);
    SortByMembers(ByCountDesc(), es);
    KeysOfEntries(es);
    KeysOfEntries(r);
  }

  /** `getTopPolluters`: count rows per country, sort by count (largest
      first, ties in the order of the tally) and keep the first ten. */
  function TopPolluters(items: seq<Item>): (top: seq<Entry>)
    ensures |top| <= TopCount
    ensures forall i, j :: 0 <= i < j < |top| ==> top[i].count >= top[j].count
    ensures DistinctKeys(top)
    ensures forall e :: e in top ==> e.key in Countries(items) && e.count == Occurrences(Countries(items), e.key)
  {
    var r := Ranking(Countries(items));
    if |r| <= TopCount then r else r[..TopCount]
  }

  /** The ranking really is the top ten: a country left out of it occurs no
      more often than any country in it, and is left out only when ten
      countries are already shown. */
  lemma TopPollutersAreTop(items: seq<Item>, k: string)
    requires k in Countries(items) && k !in Keys(TopPolluters(items))
    ensures |TopPolluters(items)| == TopCount
    ensures forall e :: e in TopPolluters(items) ==> Occurrences(Countries(items), k) <= e.count
  {
    var cs := Countries(items);
    var r := Ranking(cs);
    var p :| 0 <= p < |r| && Keys(r)[p] == k;
    LeftOutOfPrefix(r, p);
    assert r[p] in r;
  }

  /** In a ranking, an entry missing from the first ten sits after them and
      counts no more than any of them. */
  lemma LeftOutOfPrefix(r: seq<Entry>, p: int)
    requires forall i, j :: 0 <= i < j < |r| ==> r[i].count >= r[j].count
    requires 0 <= p < |r|
    requires r[p].key !in Keys(if |r| <= TopCount then r else r[..TopCount])
    ensures |r| > TopCount
    ensures forall e :: e in r[..TopCount] ==> r[p].count <= e.count
  {
  }

  /** The text `getLaunchHistory` counts a row under: the part of
      `LAUNCH_DATE || lanzamiento` before the first `-`, when it has exactly
      four characters. */
  function LaunchYear(item: Item): (y: Option<string>)
    ensures y.Some? ==> |y.value| == 4 && '-' !in y.value
    ensures y.Some? ==> var d := Either(item.launchDate, item.lanzamiento);
      Truthy(d) && |d.value| >= 4 && d.value[..4] == y.value && (|d.value| == 4 || d.value[4] == '-')
    ensures !Truthy(Either(item.launchDate, item.lanzamiento)) ==> y.None?
    ensures var d := Either(item.launchDate, item.lanzamiento);
      Truthy(d) && |d.value| >= 4 && '-' !in d.value[..4] && (|d.value| == 4 || d.value[4] == '-') ==>
      y == Some(d.value[..4])
  {
    var d := Either(item.launchDate, item.lanzamiento);
    if !Truthy(d) then None
    else
      var year := BeforeFirst(d.value, '-');
      FourBeforeDash(d.value);
      if |year| == 4 then Some(year) else None
  }

  /** A text whose first four characters hold no `-` and are followed by a
      `-` or by nothing splits at index four. */
  lemma FourBeforeDash(s: string)
    ensures |s| >= 4 && '-' !in s[..4] && (|s| == 4 || s[4] == '-') ==> BeforeFirst(s, '-') == s[..4]
  {
  }

  function LaunchYearFn(): Item -> Option<string> {
    (item: Item) => LaunchYear(item)
  }

  /** The elements a partial map sends to `k`. */
  function Yields<T>(f: T -> Option<string>, k: string): T -> bool {
    x => f(x) == Some(k)
  }

  /** The rows counted under year text `k`. */
  function HasLaunchYear(k: string): Item -> bool {
    Yields(LaunchYearFn(), k)
  }

  /** The year text of every row that has one, in order: each text occurs
      once per row counted under it. */
  function YearKeys(items: seq<Item>): (ks: seq<string>)
    ensures forall k :: k in ks ==> |k| == 4
    ensures forall item :: item in items && LaunchYear(item).Some? ==> LaunchYear(item).value in ks
    ensures forall k :: Occurrences(ks, k) == |Filter(HasLaunchYear(k), items)|
  {
    forall k
      ensures Occurrences(FilterMap(LaunchYearFn(), items), k) == |Filter(HasLaunchYear(k), items)|
    {
      OccurrencesOfFilterMap(LaunchYearFn(), items, k);
    }
    FilterMap(LaunchYearFn(), items)
  }

  /** A text occurs in the successes of a partial map once per element
      mapped to it. */
  lemma {:induction false} OccurrencesOfFilterMap<T(!new)>(f: T -> Option<string>, s: seq<T>, k: string)
    ensures Occurrences(FilterMap(f, s), k) == |Filter(Yields(f, k), s)|
    decreases |s|
  {
    if |s| > 0 {
      OccurrencesOfFilterMap(f, s[1..], k);
      var rest := FilterMap(f, s[1..]);
      if f(s[0]).Some? {
        assert FilterMap(f, s) == [f(s[0]).value] + rest;
        OccurrencesCons(f(s[0]).value, rest, k);
      } else {
        assert FilterMap(f, s) == [] + rest;
        assert [] + rest == rest;
      }
    }
  }


  /** The years the history shows. */
  const FirstLaunch := 1957
  const LastShown := 2025

  /** One point of the launch history. */
  datatype YearCount = YearCount(year: int, count: nat)

  /** `{ year: parseInt(year), count }`, kept when the year is in range.
      `parseInt` is read in base 10: on the four-character keys the history
      passes, a radix-less `parseInt` reading "0x" as hexadecimal gives at
      most 255, so both keep the same entries. */
  function ToYearCount(e: Entry): (y: Option<YearCount>)
    ensures y.Some? <==> ParseInt(e.key).Some? && FirstLaunch <= ParseInt(e.key).value <= LastShown
    ensures y.Some? ==> y.value.year == ParseInt(e.key).value && y.value.count == e.count
  {
    match ParseInt(e.key)
    case None => None
    case Some(v) => if FirstLaunch <= v <= LastShown then Some(YearCount(v, e.count)) else None
  }

  function ToYearCountFn(): Entry -> Option<YearCount> {
    (e: Entry) => ToYearCount(e)
  }

  function ByYear(): YearCount -> int {
    (y: YearCount) => y.year
  }

  /** The in-range years of the year texts, one entry per text, in order
      of first appearance. */
  function YearCounts(keys: seq<string>): (ys: seq<YearCount>)
    requires forall k :: k in keys ==> |k| == 4
    ensures DistinctBy(ByYear(), ys)
    ensures forall y :: y in ys ==> FirstLaunch <= y.year <= LastShown && y.count > 0
    ensures forall y :: y in ys ==> exists k :: k in keys && ParseInt(k) == Some(y.year) && y.count == Occurrences(keys, k)
    ensures forall k :: k in keys && ParseInt(k).Some? && FirstLaunch <= ParseInt(k).value <= LastShown ==>
      exists y :: y in ys && y.year == ParseInt(k).value
  {
    YearCountsDistinct(keys);
    YearCountsSound(keys);
    YearCountsComplete(keys);
    FilterMap(ToYearCountFn(), Tally(keys))
  }

  lemma YearCountsDistinct(keys: seq<string>)
    requires forall k :: k in keys ==> |k| == 4
    ensures DistinctBy(ByYear(), FilterMap(ToYearCountFn(), Tally(keys)))
  {
    var es := Tally(keys);
    KeysOfEntries(es);
    assert forall i :: 0 <= i < |es| ==> |es[i].key| == 4 by {
      forall i | 0 <= i < |es|
        ensures |es[i].key| == 4
      {
        assert es[i] in es;
      }
    }
    YearsDistinct(es);
  }

  lemma YearCountsSound(keys: seq<string>)
    ensures forall y :: y in FilterMap(ToYearCountFn(), Tally(keys)) ==>
      FirstLaunch <= y.year <= LastShown && y.count > 0
    ensures forall y :: y in FilterMap(ToYearCountFn(), Tally(keys)) ==>
      exists k :: k in keys && ParseInt(k) == Some(y.year) && y.count == Occurrences(keys, k)
  {
    var es := Tally(keys);
    TallyCounts(keys);
    forall y | y in FilterMap(ToYearCountFn(), es)
      ensures FirstLaunch <= y.year <= LastShown && y.count > 0
      ensures exists k :: k in keys && ParseInt(k) == Some(y.year) && y.count == Occurrences(keys, k)
    {
      var e :| e in es && ToYearCountFn()(e) == Some(y);
      assert ToYearCount(e) == Some(y);
      assert e.count == Occurrences(keys, e.key) && e.key in keys;
      assert ParseInt(e.key) == Some(y.year);
    }
  }

  lemma YearCountsComplete(keys: seq<string>)
    ensures forall k :: k in keys && ParseInt(k).Some? && FirstLaunch <= ParseInt(k).value <= LastShown ==>
      exists y :: y in FilterMap(ToYearCountFn(), Tally(keys)) && y.year == ParseInt(k).value
  {
    var es := Tally(keys);
    KeysOfEntries(es);
    forall k | k in keys && ParseInt(k).Some? && FirstLaunch <= ParseInt(k).value <= LastShown
      ensures exists y :: y in FilterMap(ToYearCountFn(), es) && y.year == ParseInt(k).value
    {
      var e :| e in es && e.key == k;
      assert ToYearCountFn()(e).value in FilterMap(ToYearCountFn(), es);
    }
  }

  /** Ascending with no year twice is strictly ascending. */
  lemma StrictlyAscending(h: seq<YearCount>)
    requires SortedBy(ByYear(), h) && DistinctBy(ByYear(), h)
    ensures forall i, j :: 0 <= i < j < |h| ==> h[i].year < h[j].year
  {
    forall i, j | 0 <= i < j < |h|
      ensures h[i].year < h[j].year
    {
      assert ByYear()(h[i]) <= ByYear()(h[j]) && ByYear()(h[i]) != ByYear()(h[j]);
    }
  }

  /** `getLaunchHistory`: launches per year text, read as numbers, limited to
      1957-2025, in ascending order of year. */
  function LaunchHistory(items: seq<Item>): (h: seq<YearCount>)
    ensures forall i, j :: 0 <= i < j < |h| ==> h[i].year < h[j].year
    ensures forall y :: y in h ==> FirstLaunch <= y.year <= LastShown && y.count > 0
    ensures forall y :: y in h ==> exists k :: k in YearKeys(items) && ParseInt(k) == Some(y.year) && y.count == Occurrences(YearKeys(items), k)
    ensures forall k :: k in YearKeys(items) && ParseInt(k).Some? && FirstLaunch <= ParseInt(k).value <= LastShown ==>
      exists y :: y in h && y.year == ParseInt(k).value
  {
    var ys := YearCounts(YearKeys(items));
    var h := SortBy(ByYear(), ys);
    SortByMembers(ByYear(), ys);
    SortByDistinct(ByYear(), ByYear(), ys);
    StrictlyAscending(h);
    h
  }

  /** A four-character text that `parseInt` reads as a year of four digits
      is made of digits only, so it is the year's own text. */
  lemma FourDigitYear(s: string)
    requires |s| == 4 && ParseInt(s).Some? && ParseInt(s).value >= 1000
    ensures AllDigits(s) && ParseInt(s).value == DigitsValue(s)
  {
    var t := TrimStart(s);
    var body := if |t| > 0 && (t[0] == '-' || t[0] == '+') then t[1..] else t;
    var digits := LeadingDigits(body);
    assert ParseInt(s) == Some(DigitsValue(digits));
    AtLeastFourDigits(digits);
    assert body == t && t == s && digits == s;
  }

  /** A value of 1000 or more takes at least four digits. */
  lemma AtLeastFourDigits(d: string)
    requires forall i :: 0 <= i < |d| ==> IsDigit(d[i])
    requires DigitsValue(d) >= 1000
    ensures |d| >= 4
  {
    if |d| < 4 {
      DigitsValueBound(d);
      Pow10Monotone(|d|, 3);
    }
  }

  /** Two year texts of the same length with the same value are the same text. */
  lemma {:induction false} DigitsValueInjective(a: string, b: string)
    requires |a| == |b|
    requires forall i :: 0 <= i < |a| ==> IsDigit(a[i])
    requires forall i :: 0 <= i < |b| ==> IsDigit(b[i])
    requires DigitsValue(a) == DigitsValue(b)
    ensures a == b
    decreases |a|
  {
    if |a| > 0 {
      var n := |a| - 1;
      LastDigit(DigitsValue(a[..n]), a[n] as int - '0' as int, DigitsValue(b[..n]), b[n] as int - '0' as int);
      DigitsValueInjective(a[..n], b[..n]);
      assert a == a[..n] + [a[n]] && b == b[..n] + [b[n]];
    }
  }

  /** A number in base ten determines its last digit and the rest. */
  lemma LastDigit(x: nat, d: int, y: nat, e: int)
    requires 0 <= d < 10 && 0 <= e < 10 && x * 10 + d == y * 10 + e
    ensures x == y && d == e
  {
  }

  /** Two year texts that `parseInt` reads as the same year in range are
      the same text. */
  lemma SameYearSameKey(a: string, b: string)
    requires |a| == 4 && |b| == 4
    requires ParseInt(a).Some? && ParseInt(a) == ParseInt(b) && ParseInt(a).value >= FirstLaunch
    ensures a == b
  {
    FourDigitYear(a);
    FourDigitYear(b);
    DigitsValueInjective(a, b);
  }

  /** Distinct year texts give distinct years. */
  lemma {:induction false} YearsDistinct(es: seq<Entry>)
    requires DistinctKeys(es) && forall i :: 0 <= i < |es| ==> |es[i].key| == 4
    ensures DistinctBy(ByYear(), FilterMap(ToYearCountFn(), es))
    decreases |es|
  {
    if |es| > 0 {
      var rest := FilterMap(ToYearCountFn(), es[1..]);
      DistinctKeysTail(es);
      YearsDistinct(es[1..]);
      if ToYearCount(es[0]).Some? {
        var y0 := ToYearCount(es[0]).value;
        LaterYearsDiffer(es, y0);
        YearNotRepeated(es[1..], y0);
        assert FilterMap(ToYearCountFn(), es) == [y0] + rest;
        DistinctByCons(ByYear(), y0, rest);
      } else {
        assert FilterMap(ToYearCountFn(), es) == rest;
      }
    }
  }

  lemma DistinctKeysTail(es: seq<Entry>)
    requires |es| > 0 && DistinctKeys(es)
    ensures DistinctKeys(es[1..])
  {
    forall i, j | 0 <= i < j < |es| - 1
      ensures es[1..][i].key != es[1..][j].key
    {
      assert es[1..][i] == es[i + 1] && es[1..][j] == es[j + 1];
    }
  }

  lemma LaterYearsDiffer(es: seq<Entry>, y0: YearCount)
    requires DistinctKeys(es) && forall i :: 0 <= i < |es| ==> |es[i].key| == 4
    requires |es| > 0 && ToYearCount(es[0]) == Some(y0)
    ensures forall j :: 0 <= j < |es| - 1 && ToYearCount(es[1..][j]).Some? ==> ToYearCount(es[1..][j]).value.year != y0.year
  {
    forall j | 1 <= j < |es| && ToYearCount(es[j]).Some?
      ensures ToYearCount(es[j]).value.year != y0.year
    {
      if ToYearCount(es[j]).value.year == y0.year {
        SameYearSameKey(es[0].key, es[j].key);
      }
    }
    assert forall j :: 0 <= j < |es| - 1 ==> es[1..][j] == es[j + 1];
  }

  /** A year no text of `tail` reads as is none of its years. */
  lemma YearNotRepeated(tail: seq<Entry>, y0: YearCount)
    requires forall j :: 0 <= j < |tail| && ToYearCount(tail[j]).Some? ==> ToYearCount(tail[j]).value.year != y0.year
    ensures forall y :: y in FilterMap(ToYearCountFn(), tail) ==> y.year != y0.year
  {
    forall y | y in FilterMap(ToYearCountFn(), tail)
      ensures y.year != y0.year
    {
      var x :| x in tail && ToYearCountFn()(x) == Some(y);
      var j :| 0 <= j < |tail| && tail[j] == x;
      assert ToYearCount(tail[j]) == Some(y);
    }
  }


}

=== FILE: counting.dfy ===
/** Counting and ordering over sequences, as the analytics views do it with
    plain objects and `Array.prototype.sort`: a tally of keys
    (`counts[k] = (counts[k] || 0) + 1` followed by `Object.entries`), and a
    stable sort by an integer key. The tally lists keys in order of first
    appearance, which is the order `Object.entries` gives for keys that are
    not array indices; `Object.entries` lists index-like keys ("1998",
    "2004", ...) first and in ascending numeric order, which this tally does
    not reproduce. */
module Counting {

  /** One `[key, count]` pair of `Object.entries`. */
  datatype Entry = Entry(key: string, count: nat)

  /** How many times `k` occurs in `keys`. */
  function Occurrences(keys: seq<string>, k: string): nat
    decreases |keys|
  {
    if |keys| == 0 then 0
    else Occurrences(keys[..|keys| - 1], k) + (if keys[|keys| - 1] == k then 1 else 0)
  }

  lemma OccurrencesSnoc(keys: seq<string>, x: string, k: string)
    ensures Occurrences(keys + [x], k) == Occurrences(keys, k) + (if x == k then 1 else 0)
  {
    assert (keys + [x])[..|keys|] == keys;
  }

  lemma {:induction false} OccurrencesCons(x: string, keys: seq<string>, k: string)
    ensures Occurrences([x] + keys, k) == (if x == k then 1 else 0) + Occurrences(keys, k)
    decreases |keys|
  {
    if |keys| == 0 {
      OccurrencesSnoc([], x, k);
      assert [x] + keys == [] + [x];
    } else {
      var init, last := keys[..|keys| - 1], keys[|keys| - 1];
      assert keys == init + [last];
      assert [x] + keys == ([x] + init) + [last];
      OccurrencesCons(x, init, k);
      OccurrencesSnoc([x] + init, last, k);
      OccurrencesSnoc(init, last, k);
    }
  }

  /** The count stored under `k`, or 0 when there is none (`counts[k] || 0`). */
  function Lookup(es: seq<Entry>, k: string): nat
    decreases |es|
  {
    if |es| == 0 then 0 else if es[0].key == k then es[0].count else Lookup(es[1..], k)
  }

  predicate DistinctKeys(es: seq<Entry>) {
    forall i, j :: 0 <= i < j < |es| ==> es[i].key != es[j].key
  }

  /** The keys of a table, in order. */
  function Keys(es: seq<Entry>): (ks: seq<string>)
    ensures |ks| == |es| && forall i :: 0 <= i < |es| ==> ks[i] == es[i].key
    decreases |es|
  {
    if |es| == 0 then [] else [es[0].key] + Keys(es[1..])
  }

  /** In a table with distinct keys, `Lookup` finds each entry's own count. */
  lemma {:induction false} LookupAt(es: seq<Entry>, i: int)
    requires DistinctKeys(es) && 0 <= i < |es|
    ensures Lookup(es, es[i].key) == es[i].count
    decreases |es|
  {
    if i > 0 {
      assert es[0].key != es[i].key;
      assert es[1..][i - 1] == es[i];
      LookupAt(es[1..], i - 1);
    }
  }

  /** `counts[k] = (counts[k] || 0) + 1`: increment the entry of `k` in
      place, or append a new entry at the end. */
  function Bump(es: seq<Entry>, k: string): (r: seq<Entry>)
    requires DistinctKeys(es)
    ensures DistinctKeys(r)
    ensures forall key :: key in Keys(r) <==> key in Keys(es) || key == k
    decreases |es|
  {
    if |es| == 0 then [Entry(k, 1)]
    else if es[0].key == k then [Entry(k, es[0].count + 1)] + es[1..]
    else
      var rest := Bump(es[1..], k);
      var tail := Keys(es[1..]);
      assert forall i :: 0 <= i < |tail| ==> tail[i] != es[0].key by {
        forall i | 0 <= i < |tail|
          ensures tail[i] != es[0].key
        {
          assert tail[i] == es[i + 1].key;
        }
      }
      assert es[0].key !in Keys(rest);
      var r := [es[0]] + rest;
      assert forall j :: 0 < j < |r| ==> r[j].key == Keys(rest)[j - 1];
      r
  }

  /** `Bump` adds one to the count of `k` and leaves every other count alone. */
  lemma {:induction false} BumpCounts(es: seq<Entry>, k: string)
    requires DistinctKeys(es)
    ensures forall key :: Lookup(Bump(es, k), key) == Lookup(es, key) + (if key == k then 1 else 0)
    ensures (forall i :: 0 <= i < |es| ==> es[i].count > 0) ==> forall i :: 0 <= i < |Bump(es, k)| ==> Bump(es, k)[i].count > 0
    decreases |es|
  {
    if |es| > 0 && es[0].key != k {
      BumpCounts(es[1..], k);
    }
  }

  /** The tally of `keys`: one entry per distinct key, in order of first
      appearance (not the index-first order of `Object.entries`), holding
      the number of times the key occurs. */
  function Tally(keys: seq<string>): (es: seq<Entry>)
    ensures DistinctKeys(es)
    ensures forall k :: Lookup(es, k) == Occurrences(keys, k)
    ensures forall k :: k in Keys(es) <==> k in keys
    ensures forall i :: 0 <= i < |es| ==> es[i].count > 0
    decreases |keys|
  {
    if |keys| == 0 then []
    else
      var init := keys[..|keys| - 1];
      assert forall k :: k in keys <==> k in init || k == keys[|keys| - 1] by {
        assert keys == init + [keys[|keys| - 1]];
      }
      BumpCounts(Tally(init), keys[|keys| - 1]);
      Bump(Tally(init), keys[|keys| - 1])
  }

  /** Each entry of the tally counts its key's occurrences. */
  lemma TallyCounts(keys: seq<string>)
    ensures forall e :: e in Tally(keys) ==> e.count == Occurrences(keys, e.key) && e.key in keys
  {
    var es := Tally(keys);
    forall e | e in es
      ensures e.count == Occurrences(keys, e.key) && e.key in keys
    {
      var i :| 0 <= i < |es| && es[i] == e;
      LookupAt(es, i);
      assert Keys(es)[i] == e.key;
    }
  }

  /** A key is in the table exactly when some entry carries it. */
  lemma KeysOfEntries(es: seq<Entry>)
    ensures forall e :: e in es ==> e.key in Keys(es)
    ensures forall k :: k in Keys(es) ==> exists e :: e in es && e.key == k
  {
    forall e | e in es
      ensures e.key in Keys(es)
    {
      var i :| 0 <= i < |es| && es[i] == e;
      assert Keys(es)[i] == e.key;
    }
  }

  /** `s` is in ascending order of `key`. */
  predicate SortedBy<T>(key: T -> int, s: seq<T>) {
    forall i, j :: 0 <= i < j < |s| ==> key(s[i]) <= key(s[j])
  }

  /** Insert `e` after every element whose key is at most its own, so equal
      keys keep their order of arrival. */
  function InsertBy<T>(key: T -> int, s: seq<T>, e: T): (r: seq<T>)
    requires SortedBy(key, s)
    ensures SortedBy(key, r)
    ensures |r| == |s| + 1
    ensures forall x :: x in r ==> x in s || x == e
    decreases |s|
  {
    if |s| == 0 then [e]
    else if key(s[|s| - 1]) <= key(e) then s + [e]
    else
      var init := s[..|s| - 1];
      var last := s[|s| - 1];
      assert forall x :: x in init ==> key(x) <= key(last) by {
        forall x | x in init
          ensures key(x) <= key(last)
        {
          var j :| 0 <= j < |init| && init[j] == x;
          assert s[j] == x;
        }
      }
      var r0 := InsertBy(key, init, e);
      SortedSnoc(key, r0, last);
      assert forall x :: x in r0 + [last] ==> x in s || x == e by {
        assert s == init + [last];
      }
      r0 + [last]
  }

  /** Appending an element no smaller than all the others keeps the order. */
  lemma SortedSnoc<T>(key: T -> int, s: seq<T>, x: T)
    requires SortedBy(key, s) && forall y :: y in s ==> key(y) <= key(x)
    ensures SortedBy(key, s + [x])
  {
    var r := s + [x];
    forall i, j | 0 <= i < j < |r|
      ensures key(r[i]) <= key(r[j])
    {
      assert r[i] == s[i];
    }
  }

  /** Inserting adds exactly the one element. */
  lemma {:induction false} InsertByPermutes<T>(key: T -> int, s: seq<T>, e: T)
    requires SortedBy(key, s)
    ensures multiset(InsertBy(key, s, e)) == multiset(s) + multiset{e}
    decreases |s|
  {
    if |s| > 0 && key(s[|s| - 1]) > key(e) {
      var init := s[..|s| - 1];
      InsertByPermutes(key, init, e);
      assert s == init + [s[|s| - 1]];
    }
  }

  /** A stable insertion sort by `key`, ascending: the same elements (as a
      multiset) in ascending key order. */
  function SortBy<T>(key: T -> int, s: seq<T>): (r: seq<T>)
    ensures SortedBy(key, r)
    ensures multiset(r) == multiset(s)
    ensures |r| == |s|
    decreases |s|
  {
    if |s| == 0 then []
    else
      var init := s[..|s| - 1];
      assert s == init + [s[|s| - 1]];
      InsertByPermutes(key, SortBy(key, init), s[|s| - 1]);
      InsertBy(key, SortBy(key, init), s[|s| - 1])
  }

  /** Sorting neither adds nor drops an element. */
  lemma SortByMembers<T>(key: T -> int, s: seq<T>)
    ensures forall x :: x in SortBy(key, s) <==> x in s
  {
    var r := SortBy(key, s);
    forall x
      ensures x in r <==> x in s
    {
      assert x in r <==> x in multiset(r);
      assert x in s <==> x in multiset(s);
    }
  }

  /** No two elements share a `proj` value. */
  predicate DistinctBy<T, K(==)>(proj: T -> K, s: seq<T>) {
    forall i, j :: 0 <= i < j < |s| ==> proj(s[i]) != proj(s[j])
  }

  lemma DistinctByCons<T, K>(proj: T -> K, x: T, s: seq<T>)
    requires DistinctBy(proj, s) && forall y :: y in s ==> proj(y) != proj(x)
    ensures DistinctBy(proj, [x] + s)
  {
    var r := [x] + s;
    forall i, j | 0 <= i < j < |r|
      ensures proj(r[i]) != proj(r[j])
    {
      assert r[j] == s[j - 1];
      if i > 0 {
        assert r[i] == s[i - 1];
      }
    }
  }

  /** Sorting keeps elements apart: if no two share a `proj` value before,
      none do after. */
  lemma {:induction false} SortByDistinct<T, K>(key: T -> int, proj: T -> K, s: seq<T>)
    requires DistinctBy(proj, s)
    ensures DistinctBy(proj, SortBy(key, s))
    decreases |s|
  {
    if |s| > 0 {
      var init := s[..|s| - 1];
      var e := s[|s| - 1];
      assert DistinctBy(proj, init);
      SortByDistinct(key, proj, init);
      var sorted := SortBy(key, init);
      assert forall x :: x in sorted ==> proj(x) != proj(e) by {
        forall x | x in sorted
          ensures proj(x) != proj(e)
        {
          assert x in multiset(sorted);
          assert x in multiset(init);
          var i :| 0 <= i < |init| && init[i] == x;
          assert s[i] == x;
        }
      }
      InsertByDistinct(key, proj, sorted, e);
    }
  }

  lemma {:induction false} InsertByDistinct<T, K>(key: T -> int, proj: T -> K, s: seq<T>, e: T)
    requires SortedBy(key, s) && DistinctBy(proj, s)
    requires forall x :: x in s ==> proj(x) != proj(e)
    ensures DistinctBy(proj, InsertBy(key, s, e))
    decreases |s|
  {
    if |s| > 0 && key(s[|s| - 1]) > key(e) {
      var init := s[..|s| - 1];
      var last := s[|s| - 1];
      assert DistinctBy(proj, init);
      InsertByDistinct(key, proj, init, e);
      var r0 := InsertBy(key, init, e);
      assert forall x :: x in r0 ==> proj(x) != proj(last) by {
        forall x | x in r0
          ensures proj(x) != proj(last)
        {
          if x != e {
            var i :| 0 <= i < |init| && init[i] == x;
            assert s[i] == x;
          }
        }
      }
    }
  }
}

=== FILE: debrisfilter.dfy ===
/** The record filter of the map (`filtrarDatos`) and its chips: a
    conjunction of criteria read from the form, each of which a chip can
    switch off (`disabledFilters`) or clear (`limpiarFiltro`). */
module DebrisFilter {
  import opened Wrappers
  import opened JsNum
  import opened JsText
  import opened Seqs
  import opened Region

  /** A reentered object as the filter sees it.
      - `pais`, `fecha`, `clase`, `constelacion`: string fields, `None` when absent;
      - `inclinacion`: `Number(inclinacion_orbita)`: NaN when the field is
        undefined or unreadable, 0 when it is null or empty text;
      - `masa`: `None` when `masa_en_orbita` is falsy, else its `Number` value;
      - `lat`, `lon`: the coordinates `getLat` / `getLon` read, finite or absent. */
  datatype Debris = Debris(
    pais: Option<string>,
    fecha: Option<string>,
    inclinacion: Num,
    masa: Option<Num>,
    clase: Option<string>,
    constelacion: Option<string>,
    lat: Option<real>,
    lon: Option<real>)

  /** The three constellation radio buttons. */
  datatype ConstMode = Todas | Si | No

  /** The form as `filtrarDatos` reads it. Text fields are `""` when empty;
      numeric fields are `None` when empty and otherwise the `Number` of
      their text, which may be NaN. */
  datatype Form = Form(
    pais: string,
    fechaDesde: string,
    fechaHasta: string,
    inclinacionMin: Option<Num>,
    inclinacionMax: Option<Num>,
    masaMin: Option<Num>,
    masaMax: Option<Num>,
    clase: string,
    constelacion: ConstMode,
    region: Bounds)

  /** The chip keys, one per criterion. */
  datatype FilterKey = Pais | Fecha | Inclinacion | Masa | ClaseObjeto | Constelacion | RegionKey

  const AllKeys: set<FilterKey> := {Pais, Fecha, Inclinacion, Masa, ClaseObjeto, Constelacion, RegionKey}

  /** The form with every field empty and "all constellations" checked. */
  const BlankForm := Form("", "", "", None, None, None, None, "", Todas, Bounds(None, None, None, None))

  /** "In a constellation": the lower-cased value is non-empty and neither
      "noconstelacion" nor "no". */
  predicate InConstellation(c: Option<string>) {
    var v := ToLower(OrElse(c, ""));
    |v| > 0 && v != "noconstelacion" && v != "no"
  }

  predicate PaisOk(d: Debris, f: Form) {
    f.pais == "" || d.pais == Some(f.pais)
  }

  /** Dates compare as text; a record without a date compares false against
      any date and so is never rejected by the date range. */
  predicate FechaOk(d: Debris, f: Form) {
    && (f.fechaDesde == "" || !(d.fecha.Some? && StrLess(d.fecha.value, f.fechaDesde)))
    && (f.fechaHasta == "" || !(d.fecha.Some? && StrLess(f.fechaHasta, d.fecha.value)))
  }

  /** Comparisons with NaN are false: an unreadable inclination passes. */
  predicate InclinacionOk(d: Debris, f: Form) {
    && (f.inclinacionMin.None? || !Less(d.inclinacion, f.inclinacionMin.value))
    && (f.inclinacionMax.None? || !Less(f.inclinacionMax.value, d.inclinacion))
  }

  /** Unlike the inclination, a missing mass is rejected by either bound. */
  predicate MasaOk(d: Debris, f: Form) {
    && (f.masaMin.None? || (d.masa.Some? && !Less(d.masa.value, f.masaMin.value)))
    && (f.masaMax.None? || (d.masa.Some? && !Less(f.masaMax.value, d.masa.value)))
  }

  predicate ClaseOk(d: Debris, f: Form) {
    f.clase == "" || d.clase == Some(f.clase)
  }

  predicate ConstelacionOk(d: Debris, f: Form) {
    match f.constelacion
    case Todas => true
    case Si => InConstellation(d.constelacion)
    case No => !InConstellation(d.constelacion)
  }

  predicate RegionOk(d: Debris, f: Form) {
    PointInBBox(d.lat, d.lon, f.region)
  }

  /** Whether criterion `k` accepts the record. */
  predicate Criterion(k: FilterKey, d: Debris, f: Form) {
    match k
    case Pais => PaisOk(d, f)
    case Fecha => FechaOk(d, f)
    case Inclinacion => InclinacionOk(d, f)
    case Masa => MasaOk(d, f)
    case ClaseObjeto => ClaseOk(d, f)
    case Constelacion => ConstelacionOk(d, f)
    case RegionKey => RegionOk(d, f)
  }

  /** The predicate of `debris.filter(...)`: every criterion that is not
      switched off accepts the record. */
  predicate Keep(d: Debris, f: Form, disabled: set<FilterKey>) {
    && (Pais !in disabled ==> PaisOk(d, f))
    && (Fecha !in disabled ==> FechaOk(d, f))
    && (Inclinacion !in disabled ==> InclinacionOk(d, f))
    && (Masa !in disabled ==> MasaOk(d, f))
    && (ClaseObjeto !in disabled ==> ClaseOk(d, f))
    && (Constelacion !in disabled ==> ConstelacionOk(d, f))
    && (RegionKey !in disabled ==> RegionOk(d, f))
  }

  /** `Keep` is the conjunction of the enabled criteria. */
  lemma KeepIsConjunction(d: Debris, f: Form, disabled: set<FilterKey>)
    ensures Keep(d, f, disabled) <==> forall k :: k in AllKeys && k !in disabled ==> Criterion(k, d, f)
  {
    if forall k :: k in AllKeys && k !in disabled ==> Criterion(k, d, f) {
      assert Pais in AllKeys && Fecha in AllKeys && Inclinacion in AllKeys && Masa in AllKeys;
      assert ClaseObjeto in AllKeys && Constelacion in AllKeys && RegionKey in AllKeys;
    }
  }

  function KeepPred(f: Form, disabled: set<FilterKey>): Debris -> bool {
    d => Keep(d, f, disabled)
  }

  /** `filtrarDatos`: the records every enabled criterion accepts, in their
      original order. */
  function Filtrar(debris: seq<Debris>, f: Form, disabled: set<FilterKey>): (r: seq<Debris>)
    ensures |r| <= |debris|
    ensures forall d :: d in r <==> d in debris && Keep(d, f, disabled)
  {
    Filter(KeepPred(f, disabled), debris)
  }

  /** The filter keeps the records' order: its result is a subsequence. */
  lemma FiltrarIsSubseq(debris: seq<Debris>, f: Form, disabled: set<FilterKey>)
    ensures IsSubseq(Filtrar(debris, f, disabled), debris)
  {
    FilterIsSubseq(KeepPred(f, disabled), debris);
  }

  /** Switching more chips off never hides a record: the result only grows,
      and what was shown stays in the same order. */
  lemma DisablingWidens(debris: seq<Debris>, f: Form, disabled: set<FilterKey>, more: set<FilterKey>)
    requires disabled <= more
    ensures IsSubseq(Filtrar(debris, f, disabled), Filtrar(debris, f, more))
  {
    FilterMonotone(KeepPred(f, disabled), KeepPred(f, more), debris);
  }

  /** With every chip switched off, every record is shown. */
  lemma AllDisabledShowsAll(debris: seq<Debris>, f: Form)
    ensures Filtrar(debris, f, AllKeys) == debris
  {
    FilterAll(KeepPred(f, AllKeys), debris);
  }

  /** The blank form shows every record. */
  lemma BlankFormShowsAll(debris: seq<Debris>, disabled: set<FilterKey>)
    ensures Filtrar(debris, BlankForm, disabled) == debris
  {
    FilterAll(KeepPred(BlankForm, disabled), debris);
  }

  /** `limpiarFiltro`: empty the fields of criterion `k` (the constellation
      goes back to "all"). */
  function ClearFilter(f: Form, k: FilterKey): (g: Form)
    ensures forall j, d :: j != k ==> Criterion(j, d, g) == Criterion(j, d, f)
    ensures forall d :: Criterion(k, d, g)
  {
    match k
    case Pais => f.(pais := "")
    case Fecha => f.(fechaDesde := "", fechaHasta := "")
    case Inclinacion => f.(inclinacionMin := None, inclinacionMax := None)
    case Masa => f.(masaMin := None, masaMax := None)
    case ClaseObjeto => f.(clase := "")
    case Constelacion => f.(constelacion := Todas)
    case RegionKey => f.(region := Bounds(None, None, None, None))
  }

  /** A switched-off criterion is irrelevant: whatever its fields say, the
      same records are shown as when they are cleared. */
  lemma DisabledIsIrrelevant(d: Debris, f: Form, disabled: set<FilterKey>, k: FilterKey)
    requires k in disabled
    ensures Keep(d, f, disabled) == Keep(d, ClearFilter(f, k), disabled)
  {
    KeepIsConjunction(d, f, disabled);
    KeepIsConjunction(d, ClearFilter(f, k), disabled);
  }

  /** Removing a chip (clear its fields, re-enable it) shows the same records
      as switching it off. */
  lemma RemoveIsDisable(d: Debris, f: Form, disabled: set<FilterKey>, k: FilterKey)
    ensures Keep(d, ClearFilter(f, k), disabled - {k}) == Keep(d, f, disabled + {k})
  {
    KeepIsConjunction(d, ClearFilter(f, k), disabled - {k});
    KeepIsConjunction(d, f, disabled + {k});
  }

  /** A click on a chip's body: switch its criterion off, or back on. */
  function Toggle(disabled: set<FilterKey>, k: FilterKey): (r: set<FilterKey>)
    ensures k in r <==> k !in disabled
    ensures forall j :: j != k ==> (j in r <==> j in disabled)
  {
    if k in disabled then disabled - {k} else disabled + {k}
  }

  /** Two clicks on the same chip restore the filter. */
  lemma ToggleTwice(disabled: set<FilterKey>, k: FilterKey)
    ensures Toggle(Toggle(disabled, k), k) == disabled
  {
  }

  /** A click on a chip's remove button: clear the criterion's fields and make
      sure it is switched on again. */
  function RemoveChip(f: Form, disabled: set<FilterKey>, k: FilterKey): (r: (Form, set<FilterKey>))
    ensures k !in r.1 && r.1 + {k} == disabled + {k}
    ensures forall d :: Criterion(k, d, r.0)
  {
    (ClearFilter(f, k), disabled - {k})
  }

  /** The constellation test as written: "No" and "NoConstelacion" in any
      case mean not in a constellation, and so does an absent value. */
  lemma ConstellationExamples()
    ensures !InConstellation(None) && !InConstellation(Some(""))
    ensures !InConstellation(Some("NO")) && !InConstellation(Some("NoConstelacion"))
    ensures InConstellation(Some("Starlink"))
  {
    assert ToLower("NO") == "no";
    assert ToLower("NoConstelacion") == "noconstelacion";
    assert ToLower("Starlink") == "starlink";
  }
}

=== FILE: epoch.dfy ===
/** TLE epoch resolution and the millisecond time line of JavaScript `Date`:
    the two-digit year pivot, `Date.UTC(year, 0, 1)`, the epoch instant built
    from the fractional day of year, and minute steps from it. */
module Epoch {
  import opened JsNum

  /** The epoch year field of a TLE: two decimal digits. */
  type TwoDigitYear = y: int | 0 <= y <= 99

  /** Two-digit years below this belong to the 2000s, the rest to the 1900s. */
  const CenturyPivot := 57

  const MsPerMinute := 60_000
  const MsPerDay := 86_400_000

  /** The largest magnitude a `Date` time value may have (ECMAScript TimeClip). */
  const MaxTimeMs := 8_640_000_000_000_000

  /** The full year of a TLE epoch. */
  function ResolveYear(epochyr: TwoDigitYear): (year: int)
    ensures 1957 <= year <= 2056
    ensures year % 100 == epochyr
  {
    if epochyr < CenturyPivot then epochyr + 2000 else epochyr + 1900
  }

  /** The pivot boundary: 56 is read as 2056 and 57 as 1957. */
  lemma PivotBoundary()
    ensures ResolveYear(56) == 2056 && ResolveYear(57) == 1957
  {
  }

  /** The proleptic Gregorian leap-year rule. */
  predicate IsLeap(year: int) {
    year % 4 == 0 && (year % 100 != 0 || year % 400 == 0)
  }

  /** Leap years among 1 .. n (counted with floor division, so also for n <= 0). */
  function LeapYearsThrough(n: int): int {
    n / 4 - n / 100 + n / 400
  }

  /** Days from 1970-01-01 to January 1 of `year`: `Date.UTC(year, 0, 1)` in days. */
  function DaysToYear(year: int): int {
    365 * (year - 1970) + LeapYearsThrough(year - 1) - LeapYearsThrough(1969)
  }

  lemma FloorDivStep(n: int, k: int)
    requires k == 4 || k == 100 || k == 400
    ensures n / k - (n - 1) / k == if n % k == 0 then 1 else 0
  {
    var q, r := n / k, n % k;
    assert n == k * q + r && 0 <= r < k;
    if r == 0 {
      assert n - 1 == k * (q - 1) + (k - 1);
    } else {
      assert n - 1 == k * q + (r - 1);
    }
  }

  /** Consecutive January firsts are 365 days apart, 366 after a leap year:
      the day count agrees with the calendar rule. */
  lemma {:induction false} YearLength(year: int)
    ensures DaysToYear(year + 1) - DaysToYear(year) == if IsLeap(year) then 366 else 365
  {
    FloorDivStep(year, 4);
    FloorDivStep(year, 100);
    FloorDivStep(year, 400);
  }

  lemma DaysToYearBounds(year: int)
    requires 1957 <= year <= 2057
    ensures -4748 <= DaysToYear(year) <= 31777
  {
  }

  /** A `Date` time value: milliseconds since 1970-01-01 UTC, or an invalid date. */
  datatype Instant = Invalid | At(ms: int)

  /** `ToIntegerOrInfinity` on a finite value: truncation toward zero. */
  function Trunc(x: real): (n: int)
    ensures x >= 0.0 ==> 0.0 <= x - n as real < 1.0
    ensures x < 0.0 ==> 0.0 <= n as real - x < 1.0
  {
    if x >= 0.0 then x.Floor else -((-x).Floor)
  }

  /** `new Date(t)` for a number `t` (ECMAScript TimeClip). */
  function TimeClip(t: Num): (r: Instant)
    ensures r.At? <==> t.Fin? && -(MaxTimeMs as real) <= t.v <= MaxTimeMs as real
    ensures r.At? ==> r.ms == Trunc(t.v)
  {
    if t.Fin? && -(MaxTimeMs as real) <= t.v <= MaxTimeMs as real then At(Trunc(t.v)) else Invalid
  }

  /** The exact distance in milliseconds, before truncation, from 1970-01-01
      00:00 UTC to day of year `d` (day 1.0 is January 1, 00:00). */
  function EpochMs(epochyr: TwoDigitYear, d: real): real {
    (d - 1.0) * MsPerDay as real + (DaysToYear(ResolveYear(epochyr)) * MsPerDay) as real
  }

  /** The epoch of a TLE: midnight UTC on January 1 of the resolved year plus
      `epochdays - 1` days, cut to a whole millisecond toward zero (later for
      epochs before 1970, earlier after). */
  function EpochInstant(epochyr: TwoDigitYear, epochdays: Num): (r: Instant)
    ensures !epochdays.Fin? ==> r == Invalid
    ensures epochdays.Fin? ==>
      (r.At? <==> -(MaxTimeMs as real) <= EpochMs(epochyr, epochdays.v) <= MaxTimeMs as real)
    ensures r.At? && EpochMs(epochyr, epochdays.v) >= 0.0 ==>
      EpochMs(epochyr, epochdays.v) - 1.0 < r.ms as real <= EpochMs(epochyr, epochdays.v)
    ensures r.At? && EpochMs(epochyr, epochdays.v) < 0.0 ==>
      EpochMs(epochyr, epochdays.v) <= r.ms as real < EpochMs(epochyr, epochdays.v) + 1.0
  {
    var jan1 := DaysToYear(ResolveYear(epochyr)) * MsPerDay;
    TimeClip(Plus(Times(Plus(epochdays, -1.0), MsPerDay as real), jan1 as real))
  }

  /** A whole day number `d` denotes midnight at the start of day `d` of the year. */
  lemma WholeDayEpoch(epochyr: TwoDigitYear, d: int)
    requires 1 <= d <= 366
    ensures EpochInstant(epochyr, Fin(d as real)) == At((DaysToYear(ResolveYear(epochyr)) + d - 1) * MsPerDay)
  {
    var year := ResolveYear(epochyr);
    DaysToYearBounds(year);
    var ms := (DaysToYear(year) + d - 1) * MsPerDay;
    assert (d as real - 1.0) * MsPerDay as real + (DaysToYear(year) * MsPerDay) as real == ms as real;
  }

  /** A day of year inside the year yields an instant inside that year. */
  lemma EpochWithinYear(epochyr: TwoDigitYear, d: real)
    requires 1.0 <= d
    requires d < 1.0 + (DaysToYear(ResolveYear(epochyr) + 1) - DaysToYear(ResolveYear(epochyr))) as real
    ensures EpochInstant(epochyr, Fin(d)).At?
    ensures DaysToYear(ResolveYear(epochyr)) * MsPerDay <= EpochInstant(epochyr, Fin(d)).ms
    ensures EpochInstant(epochyr, Fin(d)).ms <= DaysToYear(ResolveYear(epochyr) + 1) * MsPerDay
  {
    var year := ResolveYear(epochyr);
    DaysToYearBounds(year);
    DaysToYearBounds(year + 1);
  }

  /** A later day of year never gives an earlier instant. */
  lemma EpochMonotone(epochyr: TwoDigitYear, d1: real, d2: real)
    requires d1 <= d2
    requires EpochInstant(epochyr, Fin(d1)).At? && EpochInstant(epochyr, Fin(d2)).At?
    ensures EpochInstant(epochyr, Fin(d1)).ms <= EpochInstant(epochyr, Fin(d2)).ms
  {
  }

  /** `new Date(t.getTime() + m * 60000)`. */
  function AddMinutes(t: Instant, m: int): (r: Instant)
    ensures t.Invalid? ==> r.Invalid?
    ensures t.At? && -MaxTimeMs <= t.ms + m * MsPerMinute <= MaxTimeMs ==> r == At(t.ms + m * MsPerMinute)
    ensures t.At? && !(-MaxTimeMs <= t.ms + m * MsPerMinute <= MaxTimeMs) ==> r.Invalid?
  {
    match t
    case Invalid => Invalid
    case At(ms) => TimeClip(Fin((ms + m * MsPerMinute) as real))
  }
}

=== FILE: groundtrack.dfy ===
/** The ground track of `mostrarTrayectoria`: sample the propagator once a
    minute over four revolutions, keep the geodetically valid samples with
    normalised longitude, and split the accepted points into segments at
    longitude jumps larger than 30 degrees, dropping single-point segments. */
module GroundTrack {
  import opened Wrappers
  import opened JsNum
  import opened Epoch
  import opened Propagation
  import opened Longitude
  import opened Seqs

  /** A point of the ground track, in degrees. */
  datatype LatLon = LatLon(lat: real, lon: real)

  /** The longitude jump treated as a wrap across the antimeridian. A tunable
      heuristic, not a geometric law. */
  const JumpThreshold := 30.0

  function Abs(x: real): real {
    if x < 0.0 then -x else x
  }

  /** `Math.abs(lon - prevLon) > 30`: strict, so a 30 degree step does not split. */
  predicate Jump(prevLon: real, lon: real) {
    Abs(lon - prevLon) > JumpThreshold
  }

  /** A point inside the map: latitude in [-90, 90], longitude in [-180, 180). */
  predicate OnMap(p: LatLon) {
    -90.0 <= p.lat <= 90.0 && -180.0 <= p.lon < 180.0
  }

  /** The validity test and normalisation applied to each geodetic sample:
      NaN latitude or longitude, or a latitude beyond 90 degrees, is skipped. */
  function Accept(g: Geodetic): (p: Option<LatLon>)
    ensures p.Some? <==> g.lat.Fin? && g.lon.Fin? && -90.0 <= g.lat.v <= 90.0
    ensures p.Some? ==> OnMap(p.value) && p.value.lat == g.lat.v && SameMeridian(g.lon.v, p.value.lon)
  {
    if g.lat.NaN? || g.lon.NaN? || Abs(g.lat.v) > 90.0 then None
    else Some(LatLon(g.lat.v, Normalise(g.lon.v)))
  }

  /** The accepted point of minute offset `m`, if the sample yields one. */
  function Fix(lib: Sgp4, sat: Satrec, m: int): Option<LatLon> {
    var t := SampleInstant(sat, m);
    match lib.propagate(sat, t)
    case None => None
    case Some(pos) => Accept(lib.geodetic(pos, lib.gstime(t)))
  }

  /** The accepted points of minute offsets 0 .. n-1, in sampling order. */
  function TrackPoints(lib: Sgp4, sat: Satrec, n: nat): (pts: seq<LatLon>)
    ensures |pts| <= n
    ensures forall i :: 0 <= i < |pts| ==> OnMap(pts[i])
  {
    if n == 0 then []
    else
      TrackPoints(lib, sat, n - 1) + match Fix(lib, sat, n - 1) case None => [] case Some(p) => [p]
  }

  lemma TrackPointsNext(lib: Sgp4, sat: Satrec, m: nat)
    ensures Fix(lib, sat, m).None? ==> TrackPoints(lib, sat, m + 1) == TrackPoints(lib, sat, m)
    ensures Fix(lib, sat, m).Some? ==> TrackPoints(lib, sat, m + 1) == TrackPoints(lib, sat, m) + [Fix(lib, sat, m).value]
  {
  }

  /** Samples taken earlier come first: the points of a shorter window are a
      prefix of those of a longer one. */
  lemma {:induction false} TrackPointsPrefix(lib: Sgp4, sat: Satrec, n: nat, n': nat)
    requires n <= n'
    ensures TrackPoints(lib, sat, n) <= TrackPoints(lib, sat, n')
  {
    var f := (m: nat) => TrackPoints(lib, sat, m);
    forall m: nat
      ensures f(m) <= f(m + 1)
    {
      TrackPointsGrow(lib, sat, m);
    }
    PrefixChain(f, n, n');
  }

  /** A chain of sequences each extending the one before: every earlier
      member is a prefix of every later one. */
  lemma {:induction false} PrefixChain<T>(f: nat -> seq<T>, n: nat, n': nat)
    requires forall m: nat :: f(m) <= f(m + 1)
    requires n <= n'
    ensures f(n) <= f(n')
    decreases n'
  {
    if n < n' {
      PrefixChain(f, n, n' - 1);
      PrefixTrans(f(n), f(n' - 1), f(n'));
    }
  }

  /** One more sample keeps the points so far. */
  lemma TrackPointsGrow(lib: Sgp4, sat: Satrec, m: nat)
    ensures TrackPoints(lib, sat, m) <= TrackPoints(lib, sat, m + 1)
  {
    TrackPointsNext(lib, sat, m);
  }

  lemma PrefixTrans<T>(a: seq<T>, b: seq<T>, c: seq<T>)
    requires a <= b && b <= c
    ensures a <= c
  {
    assert c[..|b|][..|a|] == c[..|a|];
  }

  /** The maximal runs of accepted points between longitude jumps, built the
      way the loop builds them: one point at a time. */
  function Runs(pts: seq<LatLon>): (rs: seq<seq<LatLon>>)
    ensures |rs| == 0 <==> |pts| == 0
    decreases |pts|
  {
    if |pts| == 0 then []
    else
      var init := Runs(pts[..|pts| - 1]);
      var x := pts[|pts| - 1];
      if |pts| == 1 || Jump(pts[|pts| - 2].lon, x.lon) then init + [[x]]
      else init[..|init| - 1] + [init[|init| - 1] + [x]]
  }

  /** A split into runs: every run is non-empty, consecutive points inside a
      run are within the threshold, and consecutive runs meet at a jump. */
  ghost predicate WellSplit(rs: seq<seq<LatLon>>) {
    && (forall j :: 0 <= j < |rs| ==> |rs[j]| > 0)
    && (forall j, i :: 0 <= j < |rs| && 0 <= i < |rs[j]| - 1 ==> !Jump(rs[j][i].lon, rs[j][i + 1].lon))
    && (forall j :: 0 <= j < |rs| - 1 && |rs[j]| > 0 && |rs[j + 1]| > 0 ==>
          Jump(rs[j][|rs[j]| - 1].lon, rs[j + 1][0].lon))
  }

  lemma FlattenLast<T>(ss: seq<seq<T>>)
    requires |ss| > 0 && |ss[|ss| - 1]| > 0
    ensures |Flatten(ss)| > 0
    ensures Flatten(ss)[|Flatten(ss)| - 1] == ss[|ss| - 1][|ss[|ss| - 1]| - 1]
  {
    assert ss == ss[..|ss| - 1] + [ss[|ss| - 1]];
    FlattenAppend(ss[..|ss| - 1], [ss[|ss| - 1]]);
    assert Flatten([ss[|ss| - 1]]) == ss[|ss| - 1] + Flatten([]);
  }

  /** The runs partition the points, in order, a new run starting exactly
      where consecutive accepted longitudes differ by more than 30 degrees. */
  lemma {:induction false} RunsPartition(pts: seq<LatLon>)
    ensures WellSplit(Runs(pts))
    ensures Flatten(Runs(pts)) == pts
    decreases |pts|
  {
    if |pts| > 0 {
      var p' := pts[..|pts| - 1];
      var x := pts[|pts| - 1];
      RunsPartition(p');
      assert pts == p' + [x];
      RunsStep(p', x);
    }
  }

  /** One more point keeps the runs a well-formed partition. */
  lemma RunsStep(pts: seq<LatLon>, x: LatLon)
    requires WellSplit(Runs(pts)) && Flatten(Runs(pts)) == pts
    ensures WellSplit(Runs(pts + [x])) && Flatten(Runs(pts + [x])) == pts + [x]
  {
    var init := Runs(pts);
    var rs := Runs(pts + [x]);
    if |pts| == 0 || Jump(pts[|pts| - 1].lon, x.lon) {
      assert rs == init + [[x]] by {
        RunsSnoc(pts, x);
      }
      if |pts| > 0 {
        LastRunEnds(pts);
      }
      NewRun(init, x);
    } else {
      LastRunEnds(pts);
      assert rs == init[..|init| - 1] + [init[|init| - 1] + [x]] by {
        RunsSnoc(pts, x);
      }
      ExtendRun(init, x);
    }
  }

  /** The last run of a well-formed partition ends with the last point. */
  lemma LastRunEnds(pts: seq<LatLon>)
    requires WellSplit(Runs(pts)) && Flatten(Runs(pts)) == pts && |pts| > 0
    ensures var rs := Runs(pts); |rs| > 0 && |rs[|rs| - 1]| > 0 && rs[|rs| - 1][|rs[|rs| - 1]| - 1] == pts[|pts| - 1]
  {
    FlattenLast(Runs(pts));
  }

  /** Opening a run after a jump keeps the split well formed. */
  lemma NewRun(init: seq<seq<LatLon>>, x: LatLon)
    requires WellSplit(init)
    requires |init| > 0 ==> Jump(init[|init| - 1][|init[|init| - 1]| - 1].lon, x.lon)
    ensures WellSplit(init + [[x]])
    ensures Flatten(init + [[x]]) == Flatten(init) + [x]
  {
    FlattenAppend(init, [[x]]);
    assert Flatten([[x]]) == [x] + Flatten([]);
    var rs: seq<seq<LatLon>> := init + [[x]];
    forall j | 0 <= j < |rs| - 1 && |rs[j]| > 0 && |rs[j + 1]| > 0
      ensures Jump(rs[j][|rs[j]| - 1].lon, rs[j + 1][0].lon)
    {
      if j < |init| - 1 {
        assert rs[j] == init[j] && rs[j + 1] == init[j + 1];
      }
    }
    forall j: int, i: int | 0 <= j < |rs| && 0 <= i < |rs[j]| - 1
      ensures !Jump(rs[j][i].lon, rs[j][i + 1].lon)
    {
      assert rs[j] == init[j];
    }
  }

  /** Extending the last run by a point within the threshold keeps the split well formed. */
  lemma ExtendRun(init: seq<seq<LatLon>>, x: LatLon)
    requires WellSplit(init)
    requires |init| > 0
    requires !Jump(init[|init| - 1][|init[|init| - 1]| - 1].lon, x.lon)
    ensures WellSplit(init[..|init| - 1] + [init[|init| - 1] + [x]])
    ensures Flatten(init[..|init| - 1] + [init[|init| - 1] + [x]]) == Flatten(init) + [x]
  {
    var k := |init|;
    var last := init[k - 1];
    assert init == init[..k - 1] + [last];
    FlattenAppend(init[..k - 1], [last]);
    FlattenAppend(init[..k - 1], [last + [x]]);
    assert Flatten([last]) == last + Flatten([]);
    assert Flatten([last + [x]]) == (last + [x]) + Flatten([]);
    var rs: seq<seq<LatLon>> := init[..k - 1] + [last + [x]];
    forall j: int, i: int | 0 <= j < |rs| && 0 <= i < |rs[j]| - 1
      ensures !Jump(rs[j][i].lon, rs[j][i + 1].lon)
    {
      if j < k - 1 {
        assert rs[j] == init[j];
      } else if i < |last| - 1 {
        assert rs[j][i] == last[i] && rs[j][i + 1] == last[i + 1];
      } else {
        assert rs[j][i] == last[|last| - 1] && rs[j][i + 1] == x;
      }
    }
    forall j | 0 <= j < |rs| - 1 && |rs[j]| > 0 && |rs[j + 1]| > 0
      ensures Jump(rs[j][|rs[j]| - 1].lon, rs[j + 1][0].lon)
    {
      assert rs[j] == init[j];
      if j + 1 < k - 1 {
        assert rs[j + 1] == init[j + 1];
      } else {
        assert rs[j + 1][0] == last[0];
      }
    }
  }

  /** Appending one accepted point either opens a new run (first point, or a
      jump from the previous longitude) or extends the last run. */
  lemma RunsSnoc(pts: seq<LatLon>, x: LatLon)
    ensures |pts| == 0 || Jump(pts[|pts| - 1].lon, x.lon) ==> Runs(pts + [x]) == Runs(pts) + [[x]]
    ensures |pts| > 0 && !Jump(pts[|pts| - 1].lon, x.lon) ==>
      Runs(pts + [x]) == Runs(pts)[..|Runs(pts)| - 1] + [Runs(pts)[|Runs(pts)| - 1] + [x]]
  {
    assert (pts + [x])[..|pts|] == pts;
  }

  /** The runs of at least two points, in order: what is drawn. */
  function KeepLong(rs: seq<seq<LatLon>>): (segs: seq<seq<LatLon>>)
    ensures forall s :: s in segs <==> s in rs && |s| >= 2
    ensures IsSubseq(segs, rs)
    decreases |rs|
  {
    if |rs| == 0 then []
    else
      var init := KeepLong(rs[..|rs| - 1]);
      var last := rs[|rs| - 1];
      assert rs == rs[..|rs| - 1] + [last];
      IsSubseqConcat(init, rs[..|rs| - 1], if |last| >= 2 then [last] else [], [last]);
      assert rs[..|rs| - 1] + [last] == rs;
      init + (if |last| >= 2 then [last] else [])
  }

  /** The ground track of a satellite whose orbital period is `periodMin` minutes. */
  function Track(lib: Sgp4, sat: Satrec, periodMin: real): seq<seq<LatLon>> {
    KeepLong(Runs(TrackPoints(lib, sat, SampleCount(WindowMinutes(periodMin)))))
  }

  /** Every drawn segment has at least two points, all on the map, with
      consecutive longitudes at most 30 degrees apart; the drawn points are
      the accepted samples in sampling order, minus isolated ones. */
  lemma TrackShape(lib: Sgp4, sat: Satrec, periodMin: real)
    ensures forall s :: s in Track(lib, sat, periodMin) ==> |s| >= 2
    ensures forall s: seq<LatLon>, i: int :: s in Track(lib, sat, periodMin) && 0 <= i < |s| - 1 ==> !Jump(s[i].lon, s[i + 1].lon)
    ensures forall s: seq<LatLon>, i: int :: s in Track(lib, sat, periodMin) && 0 <= i < |s| ==> OnMap(s[i])
    ensures IsSubseq(Flatten(Track(lib, sat, periodMin)), TrackPoints(lib, sat, SampleCount(WindowMinutes(periodMin))))
  {
    var pts := TrackPoints(lib, sat, SampleCount(WindowMinutes(periodMin)));
    var rs := Runs(pts);
    RunsPartition(pts);
    FlattenSubseq(KeepLong(rs), rs);
    SegmentsSmooth(rs);
    forall s: seq<LatLon>, i: int | s in Track(lib, sat, periodMin) && 0 <= i < |s|
      ensures OnMap(s[i])
    {
      RunMember(rs, s, i);
    }
  }

  /** Inside a run of a well-formed split no step exceeds the threshold. */
  lemma SegmentsSmooth(rs: seq<seq<LatLon>>)
    requires WellSplit(rs)
    ensures forall s: seq<LatLon>, i: int :: s in KeepLong(rs) && 0 <= i < |s| - 1 ==> !Jump(s[i].lon, s[i + 1].lon)
  {
    forall s: seq<LatLon>, i: int | s in KeepLong(rs) && 0 <= i < |s| - 1
      ensures !Jump(s[i].lon, s[i + 1].lon)
    {
      var j :| 0 <= j < |rs| && rs[j] == s;
    }
  }

  lemma RunMember(rs: seq<seq<LatLon>>, s: seq<LatLon>, i: int)
    requires s in rs && 0 <= i < |s|
    ensures s[i] in Flatten(rs)
  {
    var j :| 0 <= j < |rs| && rs[j] == s;
    assert rs == rs[..j] + [rs[j]] + rs[j + 1..];
    FlattenAppend(rs[..j] + [rs[j]], rs[j + 1..]);
    FlattenAppend(rs[..j], [rs[j]]);
    assert Flatten([rs[j]]) == rs[j] + Flatten([]);
  }

  /** The state the loop of `mostrarTrayectoria` carries between samples:
      the closed segments, the open one and the last accepted longitude. */
  datatype Scan = Scan(segments: seq<seq<LatLon>>, segment: seq<LatLon>, prevLon: Option<real>)

  /** One accepted point: on a jump, close the open segment (keeping it only
      if it has two points or more) and start a new one; then append. */
  function Step(st: Scan, x: LatLon): Scan {
    if st.prevLon.Some? && Jump(st.prevLon.value, x.lon) then
      Scan(if |st.segment| > 1 then st.segments + [st.segment] else st.segments, [x], Some(x.lon))
    else
      Scan(st.segments, st.segment + [x], Some(x.lon))
  }

  /** The loop invariant of the ground track: after the points `pts` the
      closed segments, the open one and `prevLon` are those of `Runs(pts)`. */
  ghost predicate Tracking(pts: seq<LatLon>, st: Scan) {
    var rs := Runs(pts);
    && (if |rs| == 0 then st.segment == [] && st.segments == []
        else st.segment == rs[|rs| - 1] && st.segments == KeepLong(rs[..|rs| - 1]))
    && st.prevLon == (if |pts| == 0 then None else Some(pts[|pts| - 1].lon))
  }

  /** One accepted point, processed as the loop does, keeps the invariant. */
  lemma TrackingStep(pts: seq<LatLon>, st: Scan, x: LatLon)
    requires Tracking(pts, st)
    ensures Tracking(pts + [x], Step(st, x))
  {
    RunsSnoc(pts, x);
    var rs := Runs(pts);
    assert (pts + [x])[|pts + [x]| - 1] == x;
    if |pts| == 0 {
      assert Runs(pts + [x]) == [[x]];
    } else if Jump(pts[|pts| - 1].lon, x.lon) {
      JumpStep(rs, st, x);
    } else {
      var rs' := Runs(pts + [x]);
      assert rs'[..|rs'| - 1] == rs[..|rs| - 1];
    }
  }

  /** On a jump the open segment is closed: it joins the closed ones when
      it has two points or more, exactly as `KeepLong` keeps it. */
  lemma JumpStep(rs: seq<seq<LatLon>>, st: Scan, x: LatLon)
    requires |rs| > 0 && st.segment == rs[|rs| - 1] && st.segments == KeepLong(rs[..|rs| - 1])
    ensures (if |st.segment| > 1 then st.segments + [st.segment] else st.segments) == KeepLong(rs)
    ensures (rs + [[x]])[..|rs|] == rs
  {
    var last := rs[|rs| - 1];
    assert KeepLong(rs) == KeepLong(rs[..|rs| - 1]) + (if |last| >= 2 then [last] else []);
  }

  /** When the samples run out, closing the open segment yields the track. */
  lemma TrackingDone(pts: seq<LatLon>, st: Scan)
    requires Tracking(pts, st)
    ensures Finish(st) == KeepLong(Runs(pts))
  {
    var rs := Runs(pts);
    if |rs| > 0 {
      assert rs == rs[..|rs| - 1] + [rs[|rs| - 1]];
    }
  }

  /** The loop state after the accepted points `pts`, one at a time. */
  function ScanOf(pts: seq<LatLon>): Scan
    decreases |pts|
  {
    if |pts| == 0 then Scan([], [], None)
    else Step(ScanOf(pts[..|pts| - 1]), pts[|pts| - 1])
  }

  /** After the last sample: close the open segment if it has two points or more. */
  function Finish(st: Scan): seq<seq<LatLon>> {
    if |st.segment| > 1 then st.segments + [st.segment] else st.segments
  }

  /** The loop's state is the one the split into runs describes. */
  lemma {:induction false} ScanTracks(pts: seq<LatLon>)
    ensures Tracking(pts, ScanOf(pts))
    decreases |pts|
  {
    if |pts| > 0 {
      var init, x := pts[..|pts| - 1], pts[|pts| - 1];
      assert init + [x] == pts;
      assert ScanOf(pts) == Step(ScanOf(init), x);
      ScanTracks(init);
      TrackingStep(init, ScanOf(init), x);
    }
  }

  /** The fold the loop performs computes the filter-then-split track: the
      runs between jumps, keeping those with two points or more. */
  lemma ScanIsSplit(pts: seq<LatLon>)
    ensures Finish(ScanOf(pts)) == KeepLong(Runs(pts))
  {
    ScanTracks(pts);
    TrackingDone(pts, ScanOf(pts));
  }

  /** One sample of the loop in `mostrarTrayectoria`: propagate, convert,
      reject or accept, and split on a jump. */
  method Sample(lib: Sgp4, sat: Satrec, epoch: Instant, m: nat,
                segments: seq<seq<LatLon>>, segment: seq<LatLon>, prevLon: Option<real>)
    returns (segments': seq<seq<LatLon>>, segment': seq<LatLon>, prevLon': Option<real>)
    requires epoch == EpochInstant(sat.epochyr, sat.epochdays)
    requires Scan(segments, segment, prevLon) == ScanOf(TrackPoints(lib, sat, m))
    ensures Scan(segments', segment', prevLon') == ScanOf(TrackPoints(lib, sat, m + 1))
  {
    ghost var pts := TrackPoints(lib, sat, m);
    TrackPointsNext(lib, sat, m);
    FixAt(lib, sat, epoch, m);
    segments', segment', prevLon' := segments, segment, prevLon;
    var time := AddMinutes(epoch, m);
    var gmst := lib.gstime(time);
    var pos := lib.propagate(sat, time);
    if pos.Some? {
      var geo := lib.geodetic(pos.value, gmst);
      var lat, lon := geo.lat, geo.lon;
      if !(lat.NaN? || lon.NaN? || Abs(lat.v) > 90.0) {
        var x := LatLon(lat.v, Normalise(lon.v));
        assert Fix(lib, sat, m) == Some(x);
        ScanOfSnoc(pts, x);
        if prevLon.Some? && Jump(prevLon.value, x.lon) {
          if |segment| > 1 {
            segments' := segments + [segment];
          }
          segment' := [];
        }
        segment' := segment' + [x];
        prevLon' := Some(x.lon);
      } else {
        assert Fix(lib, sat, m) == None;
      }
    } else {
      assert Fix(lib, sat, m) == None;
    }
  }

  /** The sample of minute `m` as the loop computes it from the epoch. */
  lemma FixAt(lib: Sgp4, sat: Satrec, epoch: Instant, m: nat)
    requires epoch == EpochInstant(sat.epochyr, sat.epochdays)
    ensures var time := AddMinutes(epoch, m);
      Fix(lib, sat, m) == match lib.propagate(sat, time)
        case None => None
        case Some(pos) => Accept(lib.geodetic(pos, lib.gstime(time)))
  {
  }

  lemma ScanOfSnoc(pts: seq<LatLon>, x: LatLon)
    ensures ScanOf(pts + [x]) == Step(ScanOf(pts), x)
  {
    assert (pts + [x])[..|pts|] == pts;
  }

  /** The sampling loop of `mostrarTrayectoria`: it computes exactly the
      filter-then-split track. */
  method Trace(lib: Sgp4, sat: Satrec, periodMin: real) returns (segments: seq<seq<LatLon>>)
    ensures segments == Track(lib, sat, periodMin)
    ensures forall s :: s in segments ==> |s| >= 2
  {
    var epoch := EpochInstant(sat.epochyr, sat.epochdays);
    var span := WindowMinutes(periodMin);
    segments := [];
    var segment: seq<LatLon> := [];
    var prevLon: Option<real> := None;
    var min := 0;
    while min as real <= span
      invariant 0 <= min <= SampleCount(span)
      invariant span == WindowMinutes(periodMin)
      invariant Scan(segments, segment, prevLon) == ScanOf(TrackPoints(lib, sat, min))
      decreases SampleCount(span) - min
    {
      SampleCountMembership(span, min);
      segments, segment, prevLon := Sample(lib, sat, epoch, min, segments, segment, prevLon);
      min := min + 1;
    }
    SampleCountMembership(span, min);
    segments := Close(lib, sat, periodMin, min, segments, segment, prevLon);
  }

  /** After the last sample the open segment is closed, kept only if it
      has two points or more. */
  method Close(lib: Sgp4, sat: Satrec, periodMin: real, n: nat,
               segments: seq<seq<LatLon>>, segment: seq<LatLon>, prevLon: Option<real>)
    returns (track: seq<seq<LatLon>>)
    requires n == SampleCount(WindowMinutes(periodMin))
    requires Scan(segments, segment, prevLon) == ScanOf(TrackPoints(lib, sat, n))
    ensures track == Track(lib, sat, periodMin)
    ensures forall s :: s in track ==> |s| >= 2
  {
    ScanIsSplit(TrackPoints(lib, sat, n));
    track := segments;
    if |segment| > 1 {
      track := segments + [segment];
    }
  }

  /** The threshold is strict: a 30 degree step stays in one segment... */
  lemma ThirtyDegreesJoin()
    ensures KeepLong(Runs([LatLon(0.0, 0.0), LatLon(0.0, 30.0)])) == [[LatLon(0.0, 0.0), LatLon(0.0, 30.0)]]
  {
    var a, b := LatLon(0.0, 0.0), LatLon(0.0, 30.0);
    var rs := Runs([a, b]);
    assert [a, b][..1] == [a];
    assert Runs([a]) == [[a]];
    assert !Jump(a.lon, b.lon);
    assert [a] + [b] == [a, b];
    assert rs == [[a, b]];
    assert KeepLong(rs) == KeepLong(rs[..0]) + [[a, b]];
  }

  /** ...while a 31 degree step splits and leaves two isolated points, so
      nothing is drawn. */
  lemma ThirtyOneDegreesSplit()
    ensures KeepLong(Runs([LatLon(0.0, 0.0), LatLon(0.0, 31.0)])) == []
  {
    var a, c := LatLon(0.0, 0.0), LatLon(0.0, 31.0);
    var rs := Runs([a, c]);
    assert [a, c][..1] == [a];
    assert Runs([a]) == [[a]];
    assert rs == [[a], [c]];
    assert rs[..1] == [[a]];
    assert KeepLong(rs[..1]) == KeepLong([]);
  }

  /** A satellite that yields no position at any sample has no ground track. */
  lemma NoPositionNoTrack(lib: Sgp4, sat: Satrec, periodMin: real)
    requires forall m :: lib.propagate(sat, SampleInstant(sat, m)).None?
    ensures Track(lib, sat, periodMin) == []
  {
    NoPositionNoPoints(lib, sat, SampleCount(WindowMinutes(periodMin)));
  }

  lemma {:induction false} NoPositionNoPoints(lib: Sgp4, sat: Satrec, n: nat)
    requires forall m :: lib.propagate(sat, SampleInstant(sat, m)).None?
    ensures TrackPoints(lib, sat, n) == []
  {
    if n > 0 {
      NoPositionNoPoints(lib, sat, n - 1);
    }
  }
}

=== FILE: jsnum.dfy ===
/** JavaScript numbers as far as the modelled code observes them: NaN, the
    two infinities and finite values. Finite values are exact reals; IEEE
    rounding is not modelled. */
module JsNum {

  datatype Num = NaN | PosInf | NegInf | Fin(v: real)

  /** What an angle conversion of the propagation library yields: a finite
      number of degrees, or NaN near a singularity. Never infinite. */
  type Angle = n: Num | !n.PosInf? && !n.NegInf? witness NaN

  /** `Number.isFinite`. */
  predicate IsFinite(n: Num) {
    n.Fin?
  }

  /** JavaScript `a < b` on numbers: false as soon as one side is NaN. */
  function Less(a: Num, b: Num): (r: bool)
    ensures r ==> !a.NaN? && !b.NaN? && !a.PosInf? && !b.NegInf?
    ensures a.Fin? && b.Fin? ==> (r <==> a.v < b.v)
  {
    if a.NaN? || b.NaN? then false
    else if a.Fin? && b.Fin? then a.v < b.v
    else (a.NegInf? && !b.NegInf?) || (!a.PosInf? && b.PosInf?)
  }

  /** JavaScript `a <= b`: also false when one side is NaN. */
  function LessEq(a: Num, b: Num): (r: bool)
    ensures a.Fin? && b.Fin? ==> (r <==> a.v <= b.v)
    ensures a.NaN? || b.NaN? ==> !r
  {
    !a.NaN? && !b.NaN? && !Less(b, a)
  }

  /** `Math.min` of two numbers: NaN if either is NaN. */
  function Min(a: Num, b: Num): (r: Num)
    ensures r.NaN? <==> a.NaN? || b.NaN?
    ensures !r.NaN? ==> (r == a || r == b) && LessEq(r, a) && LessEq(r, b)
  {
    if a.NaN? || b.NaN? then NaN else if Less(b, a) then b else a
  }

  /** `Math.max` of two numbers: NaN if either is NaN. */
  function Max(a: Num, b: Num): (r: Num)
    ensures r.NaN? <==> a.NaN? || b.NaN?
    ensures !r.NaN? ==> (r == a || r == b) && LessEq(a, r) && LessEq(b, r)
  {
    if a.NaN? || b.NaN? then NaN else if Less(a, b) then b else a
  }

  /** `n + c` for a finite constant `c`. */
  function Plus(n: Num, c: real): Num {
    match n
    case Fin(x) => Fin(x + c)
    case _ => n
  }

  /** `n * k` for a positive constant `k`. */
  function Times(n: Num, k: real): Num
    requires k > 0.0
  {
    match n
    case Fin(x) => Fin(x * k)
    case _ => n
  }

  /** `n / k` for a positive constant `k`. */
  function DivBy(n: Num, k: real): Num
    requires k > 0.0
  {
    match n
    case Fin(x) => Fin(x / k)
    case _ => n
  }

  /** `Math.log`, with the natural logarithm of positive reals `ln` left
      abstract: only where the result is NaN or infinite is fixed here. */
  function Log(n: Num, ln: real -> real): (r: Num)
    ensures r.NaN? <==> n.NaN? || n.NegInf? || (n.Fin? && n.v < 0.0)
    ensures r.NegInf? <==> n == Fin(0.0)
  {
    match n
    case NaN => NaN
    case NegInf => NaN
    case PosInf => PosInf
    case Fin(x) => if x < 0.0 then NaN else if x == 0.0 then NegInf else Fin(ln(x))
  }
}

=== FILE: jstext.dfy ===
/** The JavaScript string operations the modelled code relies on: `trim`,
    `toLowerCase`, `startsWith`, `includes`, `split('-')[0]`, `parseInt(s, 10)`,
    string comparison and truthiness. Strings are sequences of characters. */
module JsText {
  import opened Wrappers

  /** ECMAScript WhiteSpace and LineTerminator code points (what `trim` and
      `parseInt` skip). */
  predicate IsWhiteSpace(c: char) {
    var n := c as int;
    n == 0x09 || n == 0x0A || n == 0x0B || n == 0x0C || n == 0x0D || n == 0x20
    || n == 0xA0 || n == 0x1680 || (0x2000 <= n <= 0x200A) || n == 0x2028
    || n == 0x2029 || n == 0x202F || n == 0x205F || n == 0x3000 || n == 0xFEFF
  }

  /** `String.prototype.trimStart`. */
  function TrimStart(s: string): (r: string)
    ensures |r| <= |s| && r == s[|s| - |r|..]
    ensures |r| == 0 || !IsWhiteSpace(r[0])
    ensures forall i :: 0 <= i < |s| - |r| ==> IsWhiteSpace(s[i])
    decreases |s|
  {
    if |s| > 0 && IsWhiteSpace(s[0]) then TrimStart(s[1..]) else s
  }

  /** `String.prototype.trimEnd`. */
  function TrimEnd(s: string): (r: string)
    ensures |r| <= |s| && r == s[..|r|]
    ensures |r| == 0 || !IsWhiteSpace(r[|r| - 1])
    ensures forall i :: |r| <= i < |s| ==> IsWhiteSpace(s[i])
    decreases |s|
  {
    if |s| > 0 && IsWhiteSpace(s[|s| - 1]) then TrimEnd(s[..|s| - 1]) else s
  }

  /** `String.prototype.trim`. */
  function Trim(s: string): string {
    TrimEnd(TrimStart(s))
  }

  /** Lower-casing of one character; only the ASCII letters are mapped. */
  function LowerChar(c: char): char {
    if 'A' <= c <= 'Z' then (c as int - 'A' as int + 'a' as int) as char else c
  }

  /** `String.prototype.toLowerCase`, restricted to ASCII letters. */
  function ToLower(s: string): (r: string)
    ensures |r| == |s|
    ensures forall i :: 0 <= i < |s| ==> r[i] == LowerChar(s[i])
  {
    seq(|s|, i requires 0 <= i < |s| => LowerChar(s[i]))
  }

  predicate IsDigit(c: char) {
    '0' <= c <= '9'
  }

  /** The regular expression `^\d+$`. */
  predicate AllDigits(s: string) {
    |s| > 0 && forall i :: 0 <= i < |s| ==> IsDigit(s[i])
  }

  /** `String.prototype.startsWith`. */
  predicate StartsWith(s: string, prefix: string) {
    |prefix| <= |s| && s[..|prefix|] == prefix
  }

  /** `String.prototype.includes`. */
  predicate Contains(s: string, sub: string)
    decreases |s|
  {
    StartsWith(s, sub) || (|s| > 0 && Contains(s[1..], sub))
  }

  /** `Contains` holds exactly when `sub` occurs at some position of `s`. */
  lemma {:induction false} ContainsAt(s: string, sub: string, k: nat)
    requires k + |sub| <= |s| && s[k..k + |sub|] == sub
    ensures Contains(s, sub)
    decreases k
  {
    if k > 0 {
      assert s[1..][k - 1..k - 1 + |sub|] == s[k..k + |sub|];
      ContainsAt(s[1..], sub, k - 1);
    }
  }

  /** JavaScript truthiness of an optional string field: present and non-empty. */
  predicate Truthy(o: Option<string>) {
    o.Some? && |o.value| > 0
  }

  /** `a || b` where `b` is always a string. */
  function OrElse(a: Option<string>, b: string): (r: string)
    ensures Truthy(a) ==> r == a.value
    ensures !Truthy(a) ==> r == b
  {
    if Truthy(a) then a.value else b
  }

  /** `a || b` where both may be absent. */
  function Either(a: Option<string>, b: Option<string>): (r: Option<string>)
    ensures Truthy(r) <==> Truthy(a) || Truthy(b)
  {
    if Truthy(a) then a else b
  }

  /** `s.split(sep)[0]`: the text before the first `sep`, or all of `s`. */
  function BeforeFirst(s: string, sep: char): (r: string)
    ensures |r| <= |s| && r == s[..|r|]
    ensures sep !in r
    ensures |r| < |s| ==> s[|r|] == sep
    decreases |s|
  {
    if |s| == 0 || s[0] == sep then [] else [s[0]] + BeforeFirst(s[1..], sep)
  }

  /** JavaScript `a < b` on strings: lexicographic by character. */
  predicate StrLess(a: string, b: string)
    decreases |a|
  {
    |b| > 0 && (|a| == 0 || a[0] < b[0] || (a[0] == b[0] && StrLess(a[1..], b[1..])))
  }

  /** The longest prefix of decimal digits. */
  function LeadingDigits(s: string): (r: string)
    ensures |r| <= |s| && r == s[..|r|]
    ensures forall i :: 0 <= i < |r| ==> IsDigit(r[i])
    ensures |r| < |s| ==> !IsDigit(s[|r|])
    decreases |s|
  {
    if |s| > 0 && IsDigit(s[0]) then [s[0]] + LeadingDigits(s[1..]) else []
  }

  /** The value of a string of decimal digits. */
  function DigitsValue(d: string): (v: nat)
    requires forall i :: 0 <= i < |d| ==> IsDigit(d[i])
    decreases |d|
  {
    if |d| == 0 then 0
    else
      assert IsDigit(d[|d| - 1]);
      DigitsValue(d[..|d| - 1]) * 10 + (d[|d| - 1] as int - '0' as int)
  }

  function Pow10(n: nat): nat {
    if n == 0 then 1 else 10 * Pow10(n - 1)
  }

  /** A string of `n` digits denotes a value below 10^n. */
  lemma {:induction false} DigitsValueBound(d: string)
    requires forall i :: 0 <= i < |d| ==> IsDigit(d[i])
    ensures DigitsValue(d) < Pow10(|d|)
    decreases |d|
  {
    if |d| > 0 {
      DigitsValueBound(d[..|d| - 1]);
    }
  }

  /** `parseInt(s, 10)`: skips leading white space, reads an optional sign
      and the longest run of digits; NaN (here `None`) when there is none. */
  function ParseInt(s: string): (r: Option<int>)
    ensures r.Some? ==> -(Pow10(|s|) as int) < r.value < Pow10(|s|)
  {
    var t := TrimStart(s);
    var neg := |t| > 0 && t[0] == '-';
    var body := if |t| > 0 && (t[0] == '-' || t[0] == '+') then t[1..] else t;
    var digits := LeadingDigits(body);
    DigitsValueBound(digits);
    Pow10Monotone(|digits|, |s|);
    var v: int := DigitsValue(digits);
    if |digits| == 0 then None
    else if neg then Some(-v)
    else Some(v)
  }

  lemma {:induction false} Pow10Monotone(a: nat, b: nat)
    requires a <= b
    ensures Pow10(a) <= Pow10(b)
    decreases b
  {
    if a < b {
      Pow10Monotone(a, b - 1);
    }
  }

  /** On a string made only of digits, `parseInt` is the decimal value. */
  lemma DigitsParse(s: string)
    requires AllDigits(s)
    ensures ParseInt(s) == Some(DigitsValue(s))
  {
    assert !IsWhiteSpace(s[0]);
    assert TrimStart(s) == s;
    LeadingDigitsAll(s);
  }

  lemma {:induction false} LeadingDigitsAll(s: string)
    requires forall i :: 0 <= i < |s| ==> IsDigit(s[i])
    ensures LeadingDigits(s) == s
    decreases |s|
  {
    if |s| > 0 {
      LeadingDigitsAll(s[1..]);
      assert [s[0]] + s[1..] == s;
    }
  }
}

=== FILE: longitude.dfy ===
/** Longitude normalisation of the ground track: `((lon + 180) % 360 + 360) % 360 - 180`
    with JavaScript's truncating remainder. */
module Longitude {
  import Epoch

  /** JavaScript `x % 360` on a finite operand: the sign follows the dividend. */
  function Rem360(x: real): (r: real)
    ensures x >= 0.0 ==> 0.0 <= r < 360.0
    ensures x < 0.0 ==> -360.0 < r <= 0.0
    ensures SameMeridian(x, r)
  {
    var q := Epoch.Trunc(x / 360.0);
    assert (x - (x - 360.0 * q as real)) / 360.0 == q as real;
    x - 360.0 * q as real
  }

  /** The same meridian: the two longitudes differ by a whole number of turns. */
  predicate SameMeridian(a: real, b: real) {
    ((a - b) / 360.0).Floor as real == (a - b) / 360.0
  }

  lemma SameMeridianTrans(a: real, b: real, c: real)
    requires SameMeridian(a, b) && SameMeridian(b, c)
    ensures SameMeridian(a, c)
  {
    var k1 := ((a - b) / 360.0).Floor;
    var k2 := ((b - c) / 360.0).Floor;
    var k := k1 + k2;
    assert (a - c) / 360.0 == (a - b) / 360.0 + (b - c) / 360.0;
    assert (a - c) / 360.0 == k as real;
    assert (k as real).Floor == k;
  }

  lemma SameMeridianShift(a: real, b: real, d: real)
    requires SameMeridian(a, b)
    ensures SameMeridian(a - d, b - d)
  {
    assert (a - d - (b - d)) / 360.0 == (a - b) / 360.0;
  }

  /** The normalised longitude lies in the half-open range [-180, 180), names
      the same meridian, and leaves a longitude already in range unchanged. */
  function Normalise(lon: real): (r: real)
    ensures -180.0 <= r < 180.0
    ensures SameMeridian(lon, r)
    ensures -180.0 <= lon < 180.0 ==> r == lon
  {
    var a := Rem360(lon + 180.0);
    var b := Rem360(a + 360.0);
    assert SameMeridian(a, a + 360.0) by {
      assert (a - (a + 360.0)) / 360.0 == -1.0;
    }
    SameMeridianTrans(lon + 180.0, a, a + 360.0);
    SameMeridianTrans(lon + 180.0, a + 360.0, b);
    SameMeridianShift(lon + 180.0, b, 180.0);
    assert lon + 180.0 - 180.0 == lon;
    assert -180.0 <= lon < 180.0 ==> a == lon + 180.0;
    b - 180.0
  }

  /** Normalising twice is normalising once. */
  lemma NormaliseIdempotent(lon: real)
    ensures Normalise(Normalise(lon)) == Normalise(lon)
  {
  }

  /** The range is half-open at the antimeridian: 180 becomes -180. */
  lemma AntimeridianIsWest()
    ensures Normalise(180.0) == -180.0
  {
  }
}

=== FILE: monitor.dfy ===
/** The live constellation view (`OrbitMonitor`): the satellites loaded from
    the CSV catalogue, the counts shown above the globe, and the positions
    of all satellites at one shared instant. */
module OrbitMonitor {
  import opened Wrappers
  import opened JsNum
  import opened JsText
  import opened Epoch
  import opened Seqs
  import opened Propagation

  /** At most this many satellites are loaded. */
  const MaxSatellites := 3000

  /** Kilometres per Earth radius: the globe's altitude unit. */
  const EarthRadiusKm := 6371.0

  /** A CSV row, by column; `None` when the column is absent. */
  datatype CsvRow = CsvRow(
    tleLine1: Option<string>, tleLine2: Option<string>,
    objectName: Option<string>, nombre: Option<string>,
    objectClass: Option<string>, claseObjeto: Option<string>,
    noradCatId: Option<string>, noradId: Option<string>)

  /** A loaded satellite. */
  datatype Sat = Sat(satrec: Satrec, name: string, clase: string, noradId: Option<string>)

  /** `twoline2satrec` on the trimmed lines: `None` when it throws. */
  type Parser = (string, string) -> Option<Satrec>

  predicate HasTle(row: CsvRow) {
    Truthy(row.tleLine1) && Truthy(row.tleLine2)
  }

  function HasTlePred(): CsvRow -> bool {
    (row: CsvRow) => HasTle(row)
  }

  /** The satellite of one row, or `None` when parsing throws. */
  function ParseRow(parse: Parser, row: CsvRow): (s: Option<Sat>)
    requires HasTle(row)
    ensures s.Some? <==> parse(Trim(row.tleLine1.value), Trim(row.tleLine2.value)).Some?
    ensures s.Some? ==> s.value.satrec == parse(Trim(row.tleLine1.value), Trim(row.tleLine2.value)).value
    ensures s.Some? ==> s.value.name == OrElse(Either(row.objectName, row.nombre), "Unknown")
    ensures s.Some? ==> s.value.clase == OrElse(Either(row.objectClass, row.claseObjeto), "Unknown")
    ensures s.Some? ==> |s.value.name| > 0 && |s.value.clase| > 0
    ensures s.Some? ==> s.value.noradId == Either(row.noradCatId, row.noradId)
  {
    match parse(Trim(row.tleLine1.value), Trim(row.tleLine2.value))
    case None => None
    case Some(satrec) =>
      Some(Sat(satrec,
        OrElse(Either(row.objectName, row.nombre), "Unknown"),
        OrElse(Either(row.objectClass, row.claseObjeto), "Unknown"),
        Either(row.noradCatId, row.noradId)))
  }

  function ParseRowFn(parse: Parser): CsvRow -> Option<Sat> {
    (row: CsvRow) => if HasTle(row) then ParseRow(parse, row) else None
  }

  /** The rows with both TLE lines, at most the first 3000 of them. */
  function Candidates(rows: seq<CsvRow>): (c: seq<CsvRow>)
    ensures |c| <= MaxSatellites
    ensures forall row :: row in c ==> row in rows && HasTle(row)
  {
    Cap(Filter(HasTlePred(), rows), MaxSatellites)
  }

  /** `slice(0, n)`: the first `n` elements, or all of them when there are fewer. */
  function Cap<T>(s: seq<T>, n: nat): (r: seq<T>)
    ensures |r| <= n && r <= s
    ensures |s| <= n ==> r == s
    ensures |s| > n ==> |r| == n
    ensures forall x :: x in r ==> x in s
  {
    if |s| <= n then s else s[..n]
  }

  /** Once `a` alone fills the cap, whatever follows it is cut off. */
  lemma CapOfLonger<T>(a: seq<T>, b: seq<T>, n: nat)
    requires |a| >= n
    ensures Cap(a + b, n) == Cap(a, n)
  {
    assert (a + b)[..n] == a[..n];
  }

  /** `validSats`: keep rows with both TLE lines, cap at 3000, parse the
      trimmed lines, and drop the rows whose parse throws. */
  function LoadSatellites(rows: seq<CsvRow>, parse: Parser): (sats: seq<Sat>)
    ensures |sats| <= MaxSatellites && |sats| <= |rows|
    ensures forall s :: s in sats ==> exists row :: row in rows && HasTle(row) && ParseRow(parse, row) == Some(s)
  {
    var c := Candidates(rows);
    var sats := FilterMap(ParseRowFn(parse), c);
    assert |c| <= |rows| by {
      assert |Filter(HasTlePred(), rows)| <= |rows|;
    }
    sats
  }

  /** Rows past the first 3000 with TLE lines are never looked at. */
  lemma CapIgnoresLaterRows(rows: seq<CsvRow>, more: seq<CsvRow>, parse: Parser)
    requires |Filter(HasTlePred(), rows)| >= MaxSatellites
    ensures LoadSatellites(rows + more, parse) == LoadSatellites(rows, parse)
  {
    CandidatesCapped(rows, more);
  }

  lemma CandidatesCapped(rows: seq<CsvRow>, more: seq<CsvRow>)
    requires |Filter(HasTlePred(), rows)| >= MaxSatellites
    ensures Candidates(rows + more) == Candidates(rows)
  {
    FilterAppend(HasTlePred(), rows, more);
    CapOfLonger(Filter(HasTlePred(), rows), Filter(HasTlePred(), more), MaxSatellites);
  }

  /** A parse failure costs only its own row: with few enough rows, the
      satellites of two row batches are those of each batch, in order. */
  lemma LoadSplits(rows: seq<CsvRow>, more: seq<CsvRow>, parse: Parser)
    requires |Filter(HasTlePred(), rows + more)| <= MaxSatellites
    ensures LoadSatellites(rows + more, parse) == LoadSatellites(rows, parse) + LoadSatellites(more, parse)
  {
    FilterAppend(HasTlePred(), rows, more);
    FilterMapAppend(ParseRowFn(parse), Filter(HasTlePred(), rows), Filter(HasTlePred(), more));
  }

  /** Every row with TLE lines that parses yields a satellite, as long as
      the cap is not reached. */
  lemma AllParsedLoaded(rows: seq<CsvRow>, parse: Parser)
    requires |Filter(HasTlePred(), rows)| <= MaxSatellites
    ensures forall row :: row in rows && HasTle(row) && ParseRow(parse, row).Some? ==>
      ParseRow(parse, row).value in LoadSatellites(rows, parse)
  {
  }

  predicate IsPayload(s: Sat) {
    Contains(s.clase, "Payload")
  }

  predicate IsDebris(s: Sat) {
    Contains(s.clase, "Debris") || Contains(s.clase, "Rocket")
  }

  function PayloadPred(): Sat -> bool {
    (s: Sat) => IsPayload(s)
  }

  function DebrisPred(): Sat -> bool {
    (s: Sat) => IsDebris(s)
  }

  /** How many satellites satisfy `p`. */
  function CountWhere(p: Sat -> bool, sats: seq<Sat>): (n: nat)
    ensures n == |Filter(p, sats)|
    ensures n <= |sats|
    ensures n == 0 <==> forall s :: s in sats ==> !p(s)
    ensures n == |sats| <==> forall s :: s in sats ==> p(s)
    decreases |sats|
  {
    if |sats| == 0 then 0
    else
      assert forall s :: s in sats <==> s == sats[0] || s in sats[1..] by {
        assert sats == [sats[0]] + sats[1..];
      }
      (if p(sats[0]) then 1 else 0) + CountWhere(p, sats[1..])
  }

  datatype Stats = Stats(total: nat, payload: nat, debris: nat)

  /** The counts above the globe: all satellites, those whose class mentions
      "Payload", and those whose class mentions "Debris" or "Rocket". */
  function StatsOf(sats: seq<Sat>): (st: Stats)
    ensures st.total == |sats|
    ensures st.payload == |Filter(PayloadPred(), sats)| && st.debris == |Filter(DebrisPred(), sats)|
    ensures st.payload <= st.total && st.debris <= st.total
    ensures st.payload == 0 <==> forall s :: s in sats ==> !IsPayload(s)
    ensures st.debris == st.total <==> forall s :: s in sats ==> IsDebris(s)
  {
    Stats(|sats|, CountWhere(PayloadPred(), sats), CountWhere(DebrisPred(), sats))
  }

  /** The counts of two batches of satellites add up: each satellite is
      counted on its own class alone. */
  lemma StatsAdd(a: seq<Sat>, b: seq<Sat>)
    ensures StatsOf(a + b).total == StatsOf(a).total + StatsOf(b).total
    ensures StatsOf(a + b).payload == StatsOf(a).payload + StatsOf(b).payload
    ensures StatsOf(a + b).debris == StatsOf(a).debris + StatsOf(b).debris
  {
    FilterAppend(PayloadPred(), a, b);
    FilterAppend(DebrisPred(), a, b);
  }

  /** The two counts are not a partition: a class naming both a payload and
      debris is counted in both. */
  lemma StatsMayOverlap(satrec: Satrec)
    ensures var st := StatsOf([Sat(satrec, "x", "Payload Debris", None)]); st.payload + st.debris > st.total
  {
    var both := "Payload Debris";
    assert both[..7] == "Payload";
    ContainsAt(both, "Payload", 0);
    assert both[8..14] == "Debris";
    ContainsAt(both, "Debris", 8);
  }

  /** A point of the globe. Latitude and longitude are passed through as the
      library returns them, with no range check. */
  datatype SatPosition = SatPosition(lat: Angle, lng: Angle, alt: Num, name: string, clase: string,
                                     noradId: Option<string>, color: string)

  /** The position of one satellite at `time`, or `None` when propagation
      yields no position. */
  function PositionOf(lib: Sgp4, time: Instant, s: Sat): (p: Option<SatPosition>)
    ensures p.Some? <==> lib.propagate(s.satrec, time).Some?
    ensures p.Some? ==> (p.value.color == "#00d9ff" <==> IsPayload(s))
    ensures p.Some? ==> p.value.color == "#00d9ff" || p.value.color == "#ff006e"
    ensures p.Some? ==> var g := lib.geodetic(lib.propagate(s.satrec, time).value, lib.gstime(time));
      p.value.lat == g.lat && p.value.lng == g.lon && p.value.name == s.name && p.value.clase == s.clase &&
      p.value.alt == DivBy(g.height, EarthRadiusKm) && p.value.noradId == s.noradId
  {
    match lib.propagate(s.satrec, time)
    case None => None
    case Some(eci) =>
      var g := lib.geodetic(eci, lib.gstime(time));
      Some(SatPosition(g.lat, g.lon, DivBy(g.height, EarthRadiusKm), s.name, s.clase, s.noradId,
        if Contains(s.clase, "Payload") then "#00d9ff" else "#ff006e"))
  }

  function PositionFn(lib: Sgp4, time: Instant): Sat -> Option<SatPosition> {
    (s: Sat) => PositionOf(lib, time, s)
  }

  /** `getSatellitePositions`: every satellite at the same instant, the ones
      without a position dropped. */
  function Positions(lib: Sgp4, sats: seq<Sat>, time: Instant): (ps: seq<SatPosition>)
    ensures |ps| <= |sats|
    ensures forall p :: p in ps ==> exists s :: s in sats && PositionOf(lib, time, s) == Some(p)
    ensures forall s :: s in sats && lib.propagate(s.satrec, time).Some? ==> PositionOf(lib, time, s).value in ps
  {
    FilterMap(PositionFn(lib, time), sats)
  }

  /** Satellites are evaluated independently: the positions of a fleet are
      those of its parts, in order, so one failure affects no other. */
  lemma PositionsSplit(lib: Sgp4, a: seq<Sat>, b: seq<Sat>, time: Instant)
    ensures Positions(lib, a + b, time) == Positions(lib, a, time) + Positions(lib, b, time)
  {
    FilterMapAppend(PositionFn(lib, time), a, b);
  }

  /** One entry per satellite that has a position. */
  lemma PositionsCount(lib: Sgp4, sats: seq<Sat>, time: Instant)
    ensures |Positions(lib, sats, time)| == |Filter(Succeeds(PositionFn(lib, time)), sats)|
  {
    FilterMapCount(PositionFn(lib, time), sats);
  }
}

=== FILE: norad.dfy ===
/** The NORAD search of the map page: the index built from the records and
    the autocomplete filter `filtrarNorad` (an all-digit query matches
    catalogue numbers by prefix; any other query matches name, class or
    country as a case-insensitive substring). */
module Norad {
  import opened Wrappers
  import opened JsText
  import opened Seqs

  /** The fields of a record the index reads; `None` when absent. */
  datatype NoradRecord = NoradRecord(
    noradId: Option<string>, noradUpper: Option<string>, norad: Option<string>, idNorad: Option<string>,
    pais: Option<string>, country: Option<string>,
    claseObjeto: Option<string>, tipo: Option<string>,
    nombre: Option<string>, name: Option<string>)

  /** One entry of `noradIndex`: every field is a string, `""` when unknown. */
  datatype NoradEntry = NoradEntry(norad: string, pais: string, clase: string, nombre: string)

  /** `d.norad_id || d.NORAD || d.norad || d.id_norad`. */
  function RecordId(d: NoradRecord): Option<string> {
    Either(Either(Either(d.noradId, d.noradUpper), d.norad), d.idNorad)
  }

  /** The index entry of a record that has a catalogue number. */
  function ToEntry(d: NoradRecord): (e: Option<NoradEntry>)
    ensures e.Some? <==> Truthy(RecordId(d))
    ensures e.Some? ==> e.value.norad == Trim(RecordId(d).value)
  {
    var id := RecordId(d);
    if !Truthy(id) then None
    else Some(NoradEntry(
      Trim(id.value),
      OrElse(Either(d.pais, d.country), ""),
      OrElse(Either(d.claseObjeto, d.tipo), ""),
      OrElse(Either(d.nombre, d.name), "")))
  }

  function ToEntryFn(): NoradRecord -> Option<NoradEntry> {
    (d: NoradRecord) => ToEntry(d)
  }

  /** `noradIndex`: the records with a catalogue number, in order, as entries. */
  function BuildIndex(records: seq<NoradRecord>): (index: seq<NoradEntry>)
    ensures |index| <= |records|
    ensures forall e :: e in index ==> exists d :: d in records && ToEntry(d) == Some(e)
    ensures forall d :: d in records && Truthy(RecordId(d)) ==> ToEntry(d).value in index
  {
    FilterMap(ToEntryFn(), records)
  }

  /** A single record gives its own entry, or nothing without a number. */
  lemma BuildIndexOne(d: NoradRecord)
    ensures BuildIndex([d]) == if Truthy(RecordId(d)) then [ToEntry(d).value] else []
  {
    assert [d][1..] == [];
  }

  /** Records are indexed one at a time, in order: the index of two batches
      is the index of the first followed by that of the second. */
  lemma BuildIndexSplit(a: seq<NoradRecord>, b: seq<NoradRecord>)
    ensures BuildIndex(a + b) == BuildIndex(a) + BuildIndex(b)
  {
    FilterMapAppend(ToEntryFn(), a, b);
  }

  function HasIdPred(): NoradRecord -> bool {
    (d: NoradRecord) => Truthy(RecordId(d))
  }

  /** One entry per record with a catalogue number. */
  lemma BuildIndexCount(records: seq<NoradRecord>)
    ensures |BuildIndex(records)| == |Filter(HasIdPred(), records)|
  {
    FilterMapCount(ToEntryFn(), records);
    FilterExt(Succeeds(ToEntryFn()), HasIdPred(), records);
  }

  /** The text test of a non-numeric query, given the lower-cased query. */
  predicate TextMatch(n: NoradEntry, lower: string) {
    || (|n.nombre| > 0 && Contains(ToLower(n.nombre), lower))
    || (|n.clase| > 0 && Contains(ToLower(n.clase), lower))
    || (|n.pais| > 0 && Contains(ToLower(n.pais), lower))
  }

  function PrefixPred(q: string): NoradEntry -> bool {
    (n: NoradEntry) => StartsWith(n.norad, q)
  }

  function TextPred(lower: string): NoradEntry -> bool {
    (n: NoradEntry) => TextMatch(n, lower)
  }

  /** `filtrarNorad`: no suggestions for a blank query; catalogue numbers
      starting with an all-digit query; otherwise the entries whose name,
      class or country contains the query, ignoring case. */
  function FiltrarNorad(query: Option<string>, index: seq<NoradEntry>): (r: seq<NoradEntry>)
    ensures |r| <= |index|
    ensures Trim(OrElse(query, "")) == "" ==> r == []
    ensures var q := Trim(OrElse(query, ""));
      AllDigits(q) ==> forall n :: n in r <==> n in index && StartsWith(n.norad, q)
    ensures var q := Trim(OrElse(query, ""));
      q != "" && !AllDigits(q) ==> forall n :: n in r <==> n in index && TextMatch(n, ToLower(q))
  {
    var q := Trim(OrElse(query, ""));
    if q == "" then []
    else if AllDigits(q) then Filter(PrefixPred(q), index)
    else Filter(TextPred(ToLower(q)), index)
  }

  /** Suggestions keep the index's order. */
  lemma FiltrarNoradIsSubseq(query: Option<string>, index: seq<NoradEntry>)
    ensures IsSubseq(FiltrarNorad(query, index), index)
  {
    var q := Trim(OrElse(query, ""));
    if q == "" {
      IsSubseqLength([], index);
    } else if AllDigits(q) {
      FilterIsSubseq(PrefixPred(q), index);
    } else {
      FilterIsSubseq(TextPred(ToLower(q)), index);
    }
  }

  lemma {:induction false} ToLowerIdempotent(s: string)
    ensures ToLower(ToLower(s)) == ToLower(s)
  {
  }

  /** Lower-casing maps white space to itself and nothing else to white space. */
  lemma LowerCharWhiteSpace(c: char)
    ensures IsWhiteSpace(LowerChar(c)) <==> IsWhiteSpace(c)
    ensures IsWhiteSpace(c) ==> LowerChar(c) == c
  {
  }

  lemma {:induction false} TrimStartToLower(s: string)
    ensures TrimStart(ToLower(s)) == ToLower(TrimStart(s))
    decreases |s|
  {
    if |s| > 0 {
      LowerCharWhiteSpace(s[0]);
      if IsWhiteSpace(s[0]) {
        assert ToLower(s)[1..] == ToLower(s[1..]);
        TrimStartToLower(s[1..]);
      }
    }
  }

  lemma {:induction false} TrimEndToLower(s: string)
    ensures TrimEnd(ToLower(s)) == ToLower(TrimEnd(s))
    decreases |s|
  {
    if |s| > 0 {
      LowerCharWhiteSpace(s[|s| - 1]);
      if IsWhiteSpace(s[|s| - 1]) {
        assert ToLower(s)[..|s| - 1] == ToLower(s[..|s| - 1]);
        TrimEndToLower(s[..|s| - 1]);
      }
    }
  }

  /** Trimming and lower-casing commute. */
  lemma TrimToLower(s: string)
    ensures Trim(ToLower(s)) == ToLower(Trim(s))
  {
    TrimStartToLower(s);
    TrimEndToLower(TrimStart(s));
  }

  /** Lower-casing leaves digits alone and makes no new ones. */
  lemma AllDigitsToLower(t: string)
    ensures AllDigits(ToLower(t)) <==> AllDigits(t)
    ensures AllDigits(t) ==> ToLower(t) == t
  {
    assert forall c :: IsDigit(LowerChar(c)) <==> IsDigit(c);
    if AllDigits(t) {
      assert forall i :: 0 <= i < |t| ==> ToLower(t)[i] == t[i];
    }
  }

  /** The case of the query does not matter: a query and its lower-cased
      form get the same suggestions. */
  lemma QueryCaseIrrelevant(q: string, index: seq<NoradEntry>)
    ensures FiltrarNorad(Some(ToLower(q)), index) == FiltrarNorad(Some(q), index)
  {
    var t := Trim(q);
    var u := Trim(ToLower(q));
    assert OrElse(Some(q), "") == q && OrElse(Some(ToLower(q)), "") == ToLower(q);
    TrimToLower(q);
    assert u == ToLower(t);
    AllDigitsToLower(t);
    if t == "" {
      assert u == "";
    } else if AllDigits(t) {
      assert u == t;
    } else {
      ToLowerIdempotent(t);
      assert ToLower(u) == ToLower(t);
    }
  }

  /** A query of digits only is used as it stands, as a prefix. */
  lemma DigitQuery(q: string, index: seq<NoradEntry>)
    requires AllDigits(q)
    ensures FiltrarNorad(Some(q), index) == Filter(PrefixPred(q), index)
  {
    assert TrimStart(q) == q;
    assert TrimEnd(q) == q;
  }
}

=== FILE: orbit3d.dfy ===
/** The 3D orbit of `plotOrbit`: the same one-minute sampling of four
    revolutions as the ground track, but each propagated ECI position is
    kept as it is, remapped into the scene's axes, with no geodetic test. */
module OrbitPath {
  import opened Wrappers
  import opened Epoch
  import opened Propagation
  import GroundTrack

  /** A point of the Three.js scene, whose y axis points up. */
  datatype Vec3 = Vec3(x: real, y: real, z: real)

  /** The ECI-to-scene remap `(x, z, -y)`: the ECI z axis (the Earth's
      rotation axis) becomes the scene's vertical. */
  function ToScene(e: Eci): Vec3 {
    Vec3(e.x, e.z, -e.y)
  }

  /** The inverse remap, from the scene back to ECI axes. */
  function FromScene(v: Vec3): Eci {
    Eci(v.x, -v.z, v.y)
  }

  /** The remap loses nothing: it is a bijection between the two frames. */
  lemma SceneRoundTrip(e: Eci, v: Vec3)
    ensures FromScene(ToScene(e)) == e
    ensures ToScene(FromScene(v)) == v
  {
  }

  /** The remap is a rotation: distances from the Earth's centre are kept. */
  lemma ToSceneKeepsRadius(e: Eci)
    ensures var v := ToScene(e); v.x * v.x + v.y * v.y + v.z * v.z == e.x * e.x + e.y * e.y + e.z * e.z
  {
  }

  /** Distinct positions stay distinct in the scene. */
  lemma ToSceneInjective(a: Eci, b: Eci)
    requires ToScene(a) == ToScene(b)
    ensures a == b
  {
    SceneRoundTrip(a, ToScene(a));
    SceneRoundTrip(b, ToScene(b));
  }

  /** The remap is linear: it commutes with sums and scaling, so straight
      segments between samples stay straight. */
  lemma ToSceneLinear(a: Eci, b: Eci, k: real)
    ensures ToScene(Eci(a.x + b.x, a.y + b.y, a.z + b.z)) ==
            Vec3(ToScene(a).x + ToScene(b).x, ToScene(a).y + ToScene(b).y, ToScene(a).z + ToScene(b).z)
    ensures ToScene(Eci(k * a.x, k * a.y, k * a.z)) == Vec3(k * ToScene(a).x, k * ToScene(a).y, k * ToScene(a).z)
  {
  }

  /** The scene point of minute offset `m`, if propagation yields a position. */
  function ScenePoint(lib: Sgp4, sat: Satrec, m: int): Option<Vec3> {
    match lib.propagate(sat, SampleInstant(sat, m))
    case None => None
    case Some(e) => Some(ToScene(e))
  }

  /** The scene points of minute offsets 0 .. n-1, in sampling order. */
  function Path(lib: Sgp4, sat: Satrec, n: nat): (pts: seq<Vec3>)
    ensures |pts| <= n
  {
    if n == 0 then []
    else
      Path(lib, sat, n - 1) + match ScenePoint(lib, sat, n - 1) case None => [] case Some(v) => [v]
  }

  lemma PathNext(lib: Sgp4, sat: Satrec, m: nat)
    ensures Path(lib, sat, m + 1) == Path(lib, sat, m) +
      match lib.propagate(sat, SampleInstant(sat, m)) case None => [] case Some(e) => [ToScene(e)]
  {
  }

  /** Samples taken earlier come first: a shorter window's path is a prefix
      of a longer one's. */
  lemma {:induction false} PathPrefix(lib: Sgp4, sat: Satrec, n: nat, n': nat)
    requires n <= n'
    ensures Path(lib, sat, n) <= Path(lib, sat, n')
    decreases n'
  {
    if n < n' {
      PathPrefix(lib, sat, n, n' - 1);
    }
  }

  /** Every point of the path is the remap of a position the propagator
      returned at some visited minute offset. */
  lemma {:induction false} PathFromPropagator(lib: Sgp4, sat: Satrec, n: nat, v: Vec3)
    requires v in Path(lib, sat, n)
    ensures exists m, e :: 0 <= m < n && lib.propagate(sat, SampleInstant(sat, m)) == Some(e) && v == ToScene(e)
  {
    if n > 0 {
      var last := match ScenePoint(lib, sat, n - 1) case None => [] case Some(w) => [w];
      if v in Path(lib, sat, n - 1) {
        PathFromPropagator(lib, sat, n - 1, v);
      } else {
        assert v in last;
        var e := lib.propagate(sat, SampleInstant(sat, n - 1)).value;
        assert v == ToScene(e);
      }
    }
  }

  /** Where the propagator never yields a position, nothing is drawn. */
  lemma {:induction false} NoPositionNoPath(lib: Sgp4, sat: Satrec, n: nat)
    requires forall m :: 0 <= m < n ==> lib.propagate(sat, SampleInstant(sat, m)).None?
    ensures Path(lib, sat, n) == []
  {
    if n > 0 {
      NoPositionNoPath(lib, sat, n - 1);
    }
  }

  /** The 3D path drops only failed propagations, while the ground track also
      drops NaN and out-of-range geodetic points: the track never has more
      points than the path. */
  lemma {:induction false} TrackNoLongerThanPath(lib: Sgp4, sat: Satrec, n: nat)
    ensures |GroundTrack.TrackPoints(lib, sat, n)| <= |Path(lib, sat, n)|
  {
    if n > 0 {
      TrackNoLongerThanPath(lib, sat, n - 1);
      if GroundTrack.Fix(lib, sat, n - 1).Some? {
        assert lib.propagate(sat, SampleInstant(sat, n - 1)).Some?;
      }
    }
  }

  /** The loop of `plotOrbit`: the scene points of the window in sampling
      order, and whether a line is added to the scene. */
  method PlotOrbit(lib: Sgp4, sat: Satrec, periodMin: real) returns (points: seq<Vec3>, drawn: bool)
    ensures points == Path(lib, sat, SampleCount(WindowMinutes(periodMin)))
    ensures drawn <==> |points| > 1
  {
    var epoch := EpochInstant(sat.epochyr, sat.epochdays);
    var span := WindowMinutes(periodMin);
    points := [];
    var min := 0;
    while min as real <= span
      invariant 0 <= min <= SampleCount(span)
      invariant points == Path(lib, sat, min)
      decreases SampleCount(span) - min
    {
      SampleCountMembership(span, min);
      PathNext(lib, sat, min);
      var time := AddMinutes(epoch, min);
      var pos := lib.propagate(sat, time);
      if pos.Some? {
        var eciPos := pos.value;
        assert Vec3(eciPos.x, eciPos.z, -eciPos.y) == ToScene(eciPos);
        points := points + [Vec3(eciPos.x, eciPos.z, -eciPos.y)];
      }
      min := min + 1;
    }
    SampleCountMembership(span, min);
    drawn := |points| > 1;
  }
}

=== FILE: propagation.dfy ===
/** The boundary to the SGP4/SDP4 library and the sampling window shared by
    the ground track and the 3D orbit path. The library is a black box: its
    operations are function values supplied by the caller. */
module Propagation {
  import opened Wrappers
  import opened JsNum
  import opened Epoch

  /** A position in the Earth-centred inertial frame, in kilometres. */
  datatype Eci = Eci(x: real, y: real, z: real)

  /** `eciToGeodetic` followed by `degreesLat` / `degreesLong`: latitude and
      longitude in degrees (NaN near singularities) and height in kilometres. */
  datatype Geodetic = Geodetic(lat: Angle, lon: Angle, height: Num)

  /** The parsed element set (`satrec`). The core reads only the epoch fields;
      the two lines it was parsed from identify it for the propagator. */
  datatype Satrec = Satrec(line1: string, line2: string, epochyr: TwoDigitYear, epochdays: Num)

  /** The library operations the core calls.
      - `propagate(satrec, time)`: the ECI position, or `None` when the result
        has no position (`position` is missing or `false`);
      - `gstime(time)`: Greenwich mean sidereal time in radians;
      - `geodetic(position, gmst)`: the geodetic point in degrees. */
  datatype Sgp4 = Sgp4(
    propagate: (Satrec, Instant) -> Option<Eci>,
    gstime: Instant -> real,
    geodetic: (Eci, real) -> Geodetic)

  /** Revolutions shown by the ground track and the 3D path. */
  const Revolutions := 4.0

  /** Minutes covered by the window: the orbital period times the revolutions. */
  function WindowMinutes(periodMin: real): real {
    periodMin * Revolutions
  }

  /** How many minute offsets `for (min = 0; min <= span; min += 1)` visits:
      0, 1, ..., floor(span), none when `span` is negative. */
  function SampleCount(span: real): (n: nat)
    ensures span < 0.0 ==> n == 0
    ensures span >= 0.0 ==> n >= 1 && (n - 1) as real <= span < n as real
  {
    if span < 0.0 then 0 else span.Floor + 1
  }

  /** The same loop for a span that may not be finite: the number of
      offsets visited, or `None` when the loop never stops. An infinite
      span (the period a mean motion of 0 gives) never fails `min <= span`;
      a NaN span fails it at once, so nothing is visited. */
  function LoopSamples(span: Num): (r: Option<nat>)
    ensures r.None? <==> span.PosInf?
    ensures span.NaN? || span.NegInf? ==> r == Some(0)
    ensures span.Fin? ==> r == Some(SampleCount(span.v))
  {
    match span
    case NaN => Some(0)
    case NegInf => Some(0)
    case PosInf => None
    case Fin(x) => Some(SampleCount(x))
  }

  /** The count agrees with the loop test `min <= span` on every offset, and
      when there is no count every offset passes the test. */
  lemma LoopSamplesMembership(span: Num, m: nat)
    ensures LoopSamples(span).Some? ==> (m < LoopSamples(span).value <==> LessEq(Fin(m as real), span))
    ensures LoopSamples(span).None? ==> LessEq(Fin(m as real), span)
  {
    if span.Fin? {
      SampleCountMembership(span.v, m);
    }
  }

  /** A minute offset is visited exactly when it lies in [0, span]. */
  lemma SampleCountMembership(span: real, m: int)
    ensures 0 <= m < SampleCount(span) <==> 0 <= m && m as real <= span
  {
  }

  /** A ~90 minute period spans 360 minutes: 361 samples, 0 through 360. */
  lemma NinetyMinuteWindow()
    ensures SampleCount(WindowMinutes(90.0)) == 361
  {
  }

  /** The instant of minute offset `m` after the satellite's epoch. */
  function SampleInstant(sat: Satrec, m: int): Instant {
    AddMinutes(EpochInstant(sat.epochyr, sat.epochdays), m)
  }

  /** Consecutive samples of a valid epoch are exactly one minute apart. */
  lemma SamplesOneMinuteApart(sat: Satrec, m: int)
    requires EpochInstant(sat.epochyr, sat.epochdays).At?
    requires SampleInstant(sat, m).At? && SampleInstant(sat, m + 1).At?
    ensures SampleInstant(sat, m + 1).ms - SampleInstant(sat, m).ms == MsPerMinute
  {
  }
}

=== FILE: reentry.dfy ===
/** The reentry map (`ReentryMap`): the rows kept for plotting, the colour
    and size of each marker, and the class filter above the map. */
module ReentryMap {
  import opened Wrappers
  import opened JsNum
  import opened JsText
  import opened Seqs

  /** The fields of a reentry row the map reads; `None` when absent.
      `lugarLat` / `lugarLon` stand for `lugar_caida?.lat` / `?.lon`. */
  datatype Row = Row(
    latCaida: Option<string>, lonCaida: Option<string>,
    lugarLat: Option<string>, lugarLon: Option<string>,
    claseObjeto: Option<string>, objectClass: Option<string>,
    masaEnOrbita: Option<string>, mass: Option<string>)

  /** `parseFloat` of a field that may be absent or empty: NaN unless there
      is text to read, which the caller-supplied `parseFloat` then reads. */
  function ParseField(v: Option<string>, parseFloat: string -> Num): (n: Num)
    ensures !Truthy(v) ==> n.NaN?
    ensures Truthy(v) ==> n == parseFloat(v.value)
  {
    if Truthy(v) then parseFloat(v.value) else NaN
  }

  /** `parseFloat(item.lat_caida || item.lugar_caida?.lat)`. */
  function Lat(row: Row, parseFloat: string -> Num): Num {
    ParseField(Either(row.latCaida, row.lugarLat), parseFloat)
  }

  /** `parseFloat(item.lon_caida || item.lugar_caida?.lon)`. */
  function Lon(row: Row, parseFloat: string -> Num): Num {
    ParseField(Either(row.lonCaida, row.lugarLon), parseFloat)
  }

  /** The test of `validData`: both coordinates are numbers and lie on the
      map (comparisons with NaN are false, so NaN never passes). */
  predicate OnMap(lat: Num, lon: Num) {
    && !lat.NaN? && !lon.NaN?
    && LessEq(Fin(-90.0), lat) && LessEq(lat, Fin(90.0))
    && LessEq(Fin(-180.0), lon) && LessEq(lon, Fin(180.0))
  }

  /** Only finite coordinates in range are on the map: infinities fail the
      range test like NaN fails the number test. */
  lemma OnMapIsFiniteRange(lat: Num, lon: Num)
    ensures OnMap(lat, lon) <==> FiniteOnMap(lat, lon)
  {
  }

  /** A finite latitude in [-90, 90] and a finite longitude in [-180, 180]. */
  predicate FiniteOnMap(lat: Num, lon: Num) {
    lat.Fin? && -90.0 <= lat.v <= 90.0 && lon.Fin? && -180.0 <= lon.v <= 180.0
  }

  function ValidPred(parseFloat: string -> Num): Row -> bool {
    (row: Row) => OnMap(Lat(row, parseFloat), Lon(row, parseFloat))
  }

  /** `validData`: the rows whose fall point can be drawn, in order. */
  function ValidData(rows: seq<Row>, parseFloat: string -> Num): (data: seq<Row>)
    ensures |data| <= |rows|
    ensures forall row :: row in data <==> row in rows && FiniteOnMap(Lat(row, parseFloat), Lon(row, parseFloat))
  {
    forall row
      ensures OnMap(Lat(row, parseFloat), Lon(row, parseFloat)) <==> FiniteOnMap(Lat(row, parseFloat), Lon(row, parseFloat))
    {
      OnMapIsFiniteRange(Lat(row, parseFloat), Lon(row, parseFloat));
    }
    Filter(ValidPred(parseFloat), rows)
  }

  /** The kept rows keep their order, and a second pass drops nothing. */
  lemma ValidDataStable(rows: seq<Row>, parseFloat: string -> Num)
    ensures IsSubseq(ValidData(rows, parseFloat), rows)
    ensures ValidData(ValidData(rows, parseFloat), parseFloat) == ValidData(rows, parseFloat)
  {
    FilterIsSubseq(ValidPred(parseFloat), rows);
    FilterAll(ValidPred(parseFloat), ValidData(rows, parseFloat));
  }

  /** A row with no fall latitude at all is never drawn. */
  lemma MissingLatitudeDropped(row: Row, rows: seq<Row>, parseFloat: string -> Num)
    requires !Truthy(row.latCaida) && !Truthy(row.lugarLat)
    ensures row !in ValidData(rows, parseFloat)
  {
  }

  /** `item.clase_objeto || item.OBJECT_CLASS || 'Unknown'`. */
  function ClassName(row: Row): (c: string)
    ensures |c| > 0
    ensures Truthy(row.claseObjeto) ==> c == row.claseObjeto.value
    ensures !Truthy(row.claseObjeto) && Truthy(row.objectClass) ==> c == row.objectClass.value
    ensures !Truthy(row.claseObjeto) && !Truthy(row.objectClass) ==> c == "Unknown"
  {
    OrElse(Either(row.claseObjeto, row.objectClass), "Unknown")
  }

  /** `CLASS_COLORS`. */
  const ClassColors: map<string, string> := map[
    "Payload" := "#00d9ff",
    "Rocket Body" := "#ff006e",
    "Debris" := "#ffbe0b",
    "Unknown" := "#8b92a8"]

  /** The fill of a marker: the colour of its class, or the colour of
      "Unknown" for any class the table does not name. */
  function MarkerColor(className: string): (color: string)
    ensures color in ClassColors.Values
    ensures className in ClassColors ==> color == ClassColors[className]
    ensures className !in ClassColors ==> color == ClassColors["Unknown"]
  {
    if className in ClassColors then ClassColors[className] else ClassColors["Unknown"]
  }

  /** Each named class has a colour of its own; every other class is drawn
      like "Unknown". */
  lemma ColorsTellClassesApart(a: string, b: string)
    requires a in ClassColors && b in ClassColors
    ensures MarkerColor(a) == MarkerColor(b) <==> a == b
  {
  }

  lemma OtherClassesLookUnknown(c: string)
    ensures MarkerColor(c) == MarkerColor("Unknown") <==> c !in ClassColors || c == "Unknown"
  {
  }

  /** `parseFloat(item.masa_en_orbita || item.MASS || 100)`: the mass text,
      or 100 when the row has none. */
  function Mass(row: Row, parseFloat: string -> Num): (m: Num)
    ensures !Truthy(row.masaEnOrbita) && !Truthy(row.mass) ==> m == Fin(100.0)
    ensures Truthy(row.masaEnOrbita) ==> m == parseFloat(row.masaEnOrbita.value)
    ensures !Truthy(row.masaEnOrbita) && Truthy(row.mass) ==> m == parseFloat(row.mass.value)
  {
    var t := Either(row.masaEnOrbita, row.mass);
    if Truthy(t) then parseFloat(t.value) else Fin(100.0)
  }

  const MinRadius := 8.0
  const MaxRadius := 20.0

  /** `Math.max(8, Math.min(20, Math.log(mass + 1) * 3))`, with the natural
      logarithm `ln` supplied by the caller: clamped to [8, 20], except that
      a mass below -1 or not a number gives NaN. */
  function Radius(mass: Num, ln: real -> real): (r: Num)
    ensures r.NaN? <==> mass.NaN? || mass.NegInf? || (mass.Fin? && mass.v < -1.0)
    ensures !r.NaN? ==> r.Fin? && MinRadius <= r.v <= MaxRadius
    ensures mass == Fin(-1.0) || mass == PosInf ==> r == (if mass.PosInf? then Fin(MaxRadius) else Fin(MinRadius))
  {
    Max(Fin(MinRadius), Min(Fin(MaxRadius), Times(Log(Plus(mass, 1.0), ln), 3.0)))
  }

  /** The marker of a row: its colour and its radius in pixels. */
  datatype Icon = Icon(color: string, radius: Num)

  /** `getMarkerIcon`. */
  function MarkerIcon(row: Row, parseFloat: string -> Num, ln: real -> real): (icon: Icon)
    ensures icon.color == MarkerColor(ClassName(row))
    ensures icon.radius == Radius(Mass(row, parseFloat), ln)
    ensures !Truthy(row.masaEnOrbita) && !Truthy(row.mass) ==>
      icon.radius.Fin? && MinRadius <= icon.radius.v <= MaxRadius
  {
    Icon(MarkerColor(ClassName(row)), Radius(Mass(row, parseFloat), ln))
  }

  /** The value of the class selector that shows every row. */
  const AllClasses := "all"

  function ClassPred(filterClass: string): Row -> bool {
    (row: Row) => ClassName(row) == filterClass
  }

  /** `filteredData`: every row for "all", otherwise the rows of the chosen
      class, in order. */
  function FilteredData(data: seq<Row>, filterClass: string): (r: seq<Row>)
    ensures |r| <= |data|
    ensures filterClass == AllClasses ==> r == data
    ensures filterClass != AllClasses ==> forall row :: row in r <==> row in data && ClassName(row) == filterClass
  {
    if filterClass == AllClasses then data else Filter(ClassPred(filterClass), data)
  }

  /** The filtered rows keep their order; the "Filtered" count never exceeds
      the "Total Reentries" count. */
  lemma FilteredIsSubseq(data: seq<Row>, filterClass: string)
    ensures IsSubseq(FilteredData(data, filterClass), data)
  {
    if filterClass == AllClasses {
      IsSubseqRefl(data);
    } else {
      FilterIsSubseq(ClassPred(filterClass), data);
    }
  }

  /** Choosing a class twice is the same as choosing it once. */
  lemma FilterClassIdempotent(data: seq<Row>, filterClass: string)
    ensures FilteredData(FilteredData(data, filterClass), filterClass) == FilteredData(data, filterClass)
  {
    if filterClass != AllClasses {
      FilterAll(ClassPred(filterClass), FilteredData(data, filterClass));
    }
  }
}

=== FILE: region.dfy ===
/** The latitude/longitude box of the record filter (`pointInBBox`). Bounds
    come from the form's text fields converted with `Number`, so a present
    bound may be NaN or infinite; coordinates come from `numOrNull` and are
    finite or absent. */
module Region {
  import opened Wrappers
  import opened JsNum

  /** The four optional bounds; `None` is an empty field (`null`). */
  datatype Bounds = Bounds(latMin: Option<Num>, latMax: Option<Num>, lonMin: Option<Num>, lonMax: Option<Num>)

  /** No bound is set: the region criterion is switched off. */
  predicate Unbounded(b: Bounds) {
    b.latMin.None? && b.latMax.None? && b.lonMin.None? && b.lonMax.None?
  }

  /** `x < bound` for an optional bound: an absent bound never rejects. */
  predicate Below(x: real, bound: Option<Num>) {
    bound.Some? && Less(Fin(x), bound.value)
  }

  /** `x > bound` for an optional bound. */
  predicate Above(x: real, bound: Option<Num>) {
    bound.Some? && Less(bound.value, Fin(x))
  }

  /** `pointInBBox`: every set bound is inclusive; with both longitude bounds
      set and `lonMin > lonMax` the box wraps across the antimeridian. */
  function PointInBBox(lat: Option<real>, lon: Option<real>, b: Bounds): (r: bool)
    ensures Unbounded(b) ==> r
    ensures !Unbounded(b) && (lat.None? || lon.None?) ==> !r
    ensures r && !Unbounded(b) && b.latMin.Some? && b.latMin.value.Fin? ==> b.latMin.value.v <= lat.value
    ensures r && !Unbounded(b) && b.latMax.Some? && b.latMax.value.Fin? ==> lat.value <= b.latMax.value.v
  {
    if Unbounded(b) then true
    else if lat.None? || lon.None? then false
    else if Below(lat.value, b.latMin) || Above(lat.value, b.latMax) then false
    else if b.lonMin.Some? && b.lonMax.Some? then
      if LessEq(b.lonMin.value, b.lonMax.value) then
        !(Less(Fin(lon.value), b.lonMin.value) || Less(b.lonMax.value, Fin(lon.value)))
      else
        LessEq(b.lonMin.value, Fin(lon.value)) || LessEq(Fin(lon.value), b.lonMax.value)
    else
      !Below(lon.value, b.lonMin) && !Above(lon.value, b.lonMax)
  }

  /** With finite bounds, a point is in an ordinary box exactly when each
      coordinate lies between its bounds, both ends included. */
  lemma FiniteBox(lat: real, lon: real, latMin: real, latMax: real, lonMin: real, lonMax: real)
    requires lonMin <= lonMax
    ensures PointInBBox(Some(lat), Some(lon), Bounds(Some(Fin(latMin)), Some(Fin(latMax)), Some(Fin(lonMin)), Some(Fin(lonMax))))
        <==> latMin <= lat <= latMax && lonMin <= lon <= lonMax
  {
  }

  /** A box that wraps across the antimeridian is the union of the two boxes
      running from `lonMin` east to the edge and from the edge to `lonMax`. */
  lemma WrapIsUnion(lat: Option<real>, lon: Option<real>, latMin: Option<Num>, latMax: Option<Num>, lonMin: Num, lonMax: Num)
    requires !lonMin.NaN? && !lonMax.NaN? && Less(lonMax, lonMin)
    ensures PointInBBox(lat, lon, Bounds(latMin, latMax, Some(lonMin), Some(lonMax)))
        <==> (PointInBBox(lat, lon, Bounds(latMin, latMax, Some(lonMin), None))
              || PointInBBox(lat, lon, Bounds(latMin, latMax, None, Some(lonMax))))
  {
  }

  /** An ordinary box is the intersection of its two half-boxes. */
  lemma PlainIsIntersection(lat: Option<real>, lon: Option<real>, latMin: Option<Num>, latMax: Option<Num>, lonMin: Num, lonMax: Num)
    requires LessEq(lonMin, lonMax)
    ensures PointInBBox(lat, lon, Bounds(latMin, latMax, Some(lonMin), Some(lonMax)))
        <==> (PointInBBox(lat, lon, Bounds(latMin, latMax, Some(lonMin), None))
              && PointInBBox(lat, lon, Bounds(latMin, latMax, None, Some(lonMax))))
  {
  }

  /** A NaN bound (a field `Number` cannot read) rejects nothing by itself:
      a latitude bound that is NaN acts as an absent one, provided some
      other bound keeps the box switched on. */
  lemma NaNLatBoundIgnored(lat: Option<real>, lon: Option<real>, b: Bounds)
    requires b.latMin == Some(NaN)
    requires b.latMax.Some? || b.lonMin.Some? || b.lonMax.Some?
    ensures PointInBBox(lat, lon, b) == PointInBBox(lat, lon, b.(latMin := None))
  {
  }

  /** A box from 170 to -170 degrees covers the antimeridian, both of its
      spellings, and excludes the prime meridian. */
  lemma AntimeridianBox()
    ensures var b := Bounds(None, None, Some(Fin(170.0)), Some(Fin(-170.0)));
      && PointInBBox(Some(0.0), Some(180.0), b)
      && PointInBBox(Some(0.0), Some(-180.0), b)
      && PointInBBox(Some(0.0), Some(170.0), b)
      && !PointInBBox(Some(0.0), Some(0.0), b)
  {
  }
}

=== FILE: seqs.dfy ===
/** Order-preserving sequence combinators shared by every module: the
    `Array.prototype.filter`, filter-then-map and `flat` of the source. */
module Seqs {
  import opened Wrappers

  /** `a` can be obtained from `b` by deleting elements (order kept). */
  ghost predicate IsSubseq<T>(a: seq<T>, b: seq<T>)
    decreases |b|
  {
    |a| == 0 || (|b| > 0 && ((a[0] == b[0] && IsSubseq(a[1..], b[1..])) || IsSubseq(a, b[1..])))
  }

  lemma {:induction false} IsSubseqRefl<T>(a: seq<T>)
    ensures IsSubseq(a, a)
    decreases |a|
  {
    if |a| > 0 {
      IsSubseqRefl(a[1..]);
    }
  }

  lemma {:induction false} IsSubseqLength<T>(a: seq<T>, b: seq<T>)
    requires IsSubseq(a, b)
    ensures |a| <= |b|
    decreases |b|
  {
    if |a| > 0 {
      if a[0] == b[0] && IsSubseq(a[1..], b[1..]) {
        IsSubseqLength(a[1..], b[1..]);
      } else {
        IsSubseqLength(a, b[1..]);
      }
    }
  }

  /** `Array.prototype.filter`: the elements satisfying `p`, in order. */
  function Filter<T(!new)>(p: T -> bool, s: seq<T>): (r: seq<T>)
    ensures |r| <= |s|
    ensures forall x :: x in r <==> x in s && p(x)
    decreases |s|
  {
    if |s| == 0 then []
    else (if p(s[0]) then [s[0]] else []) + Filter(p, s[1..])
  }

  lemma {:induction false} FilterIsSubseq<T(!new)>(p: T -> bool, s: seq<T>)
    ensures IsSubseq(Filter(p, s), s)
    decreases |s|
  {
    if |s| > 0 {
      FilterIsSubseq(p, s[1..]);
      var r := Filter(p, s);
      if p(s[0]) {
        assert r[0] == s[0] && r[1..] == Filter(p, s[1..]);
      } else {
        assert r == Filter(p, s[1..]);
      }
    }
  }

  /** Filtering distributes over concatenation: each element is judged on its own. */
  lemma {:induction false} FilterAppend<T(!new)>(p: T -> bool, a: seq<T>, b: seq<T>)
    ensures Filter(p, a + b) == Filter(p, a) + Filter(p, b)
    decreases |a|
  {
    if |a| > 0 {
      assert (a + b)[1..] == a[1..] + b;
      FilterAppend(p, a[1..], b);
    } else {
      assert a + b == b;
    }
  }

  lemma {:induction false} FilterAll<T(!new)>(p: T -> bool, s: seq<T>)
    requires forall x :: x in s ==> p(x)
    ensures Filter(p, s) == s
    decreases |s|
  {
    if |s| > 0 {
      FilterAll(p, s[1..]);
    }
  }

  /** Two predicates that agree on every element select the same elements. */
  lemma {:induction false} FilterExt<T(!new)>(p: T -> bool, q: T -> bool, s: seq<T>)
    requires forall x :: x in s ==> p(x) == q(x)
    ensures Filter(p, s) == Filter(q, s)
    decreases |s|
  {
    if |s| > 0 {
      FilterExt(p, q, s[1..]);
    }
  }

  /** A weaker predicate keeps everything a stronger one keeps, in the same order. */
  lemma {:induction false} FilterMonotone<T(!new)>(p: T -> bool, q: T -> bool, s: seq<T>)
    requires forall x :: x in s && p(x) ==> q(x)
    ensures IsSubseq(Filter(p, s), Filter(q, s))
    decreases |s|
  {
    if |s| > 0 {
      FilterMonotone(p, q, s[1..]);
      var rp, rq := Filter(p, s), Filter(q, s);
      if p(s[0]) {
        assert rp[0] == s[0] && rp[1..] == Filter(p, s[1..]);
        assert rq[0] == s[0] && rq[1..] == Filter(q, s[1..]);
      } else if q(s[0]) {
        assert rp == Filter(p, s[1..]);
        assert rq[1..] == Filter(q, s[1..]);
      } else {
        assert rp == Filter(p, s[1..]) && rq == Filter(q, s[1..]);
      }
    }
  }

  lemma {:induction false} IsSubseqDrop<T>(a: seq<T>, b: seq<T>)
    requires |a| > 0 && IsSubseq(a, b)
    ensures IsSubseq(a[1..], b)
    decreases |b|
  {
    if a[0] == b[0] && IsSubseq(a[1..], b[1..]) {
      IsSubseqCons(a[1..], b[1..], b[0]);
    } else {
      IsSubseqDrop(a, b[1..]);
      IsSubseqCons(a[1..], b[1..], b[0]);
    }
  }

  lemma {:induction false} IsSubseqCons<T>(a: seq<T>, b: seq<T>, x: T)
    requires IsSubseq(a, b)
    ensures IsSubseq(a, [x] + b)
  {
    assert ([x] + b)[1..] == b;
  }

  /** Filter followed by a partial map: the `.map(...).filter(Boolean)` idiom. */
  function FilterMap<T(!new), U(!new)>(f: T -> Option<U>, s: seq<T>): (r: seq<U>)
    ensures |r| <= |s|
    ensures forall y :: y in r ==> exists x :: x in s && f(x) == Some(y)
    ensures forall x :: x in s && f(x).Some? ==> f(x).value in r
    decreases |s|
  {
    if |s| == 0 then []
    else
      (match f(s[0]) case Some(y) => [y] case None => []) + FilterMap(f, s[1..])
  }

  /** Each element is mapped on its own: failures drop out without disturbing the rest. */
  lemma {:induction false} FilterMapAppend<T(!new), U(!new)>(f: T -> Option<U>, a: seq<T>, b: seq<T>)
    ensures FilterMap(f, a + b) == FilterMap(f, a) + FilterMap(f, b)
    decreases |a|
  {
    if |a| > 0 {
      assert (a + b)[1..] == a[1..] + b;
      FilterMapAppend(f, a[1..], b);
    } else {
      assert a + b == b;
    }
  }

  /** The elements on which a partial map succeeds. */
  function Succeeds<T, U>(f: T -> Option<U>): T -> bool {
    x => f(x).Some?
  }

  /** The number of elements that survive is the number of successes. */
  lemma {:induction false} FilterMapCount<T(!new), U(!new)>(f: T -> Option<U>, s: seq<T>)
    ensures |FilterMap(f, s)| == |Filter(Succeeds(f), s)|
    decreases |s|
  {
    if |s| > 0 {
      FilterMapCount(f, s[1..]);
    }
  }

  /** `Array.prototype.flat` on a sequence of sequences. */
  function Flatten<T>(ss: seq<seq<T>>): (r: seq<T>)
    decreases |ss|
  {
    if |ss| == 0 then [] else ss[0] + Flatten(ss[1..])
  }

  lemma {:induction false} FlattenAppend<T>(a: seq<seq<T>>, b: seq<seq<T>>)
    ensures Flatten(a + b) == Flatten(a) + Flatten(b)
    decreases |a|
  {
    if |a| > 0 {
      assert (a + b)[1..] == a[1..] + b;
      FlattenAppend(a[1..], b);
    } else {
      assert a + b == b;
    }
  }

  lemma {:induction false} IsSubseqPrepend<T>(c: seq<T>, b: seq<T>, d: seq<T>)
    requires IsSubseq(c, d)
    ensures IsSubseq(c, b + d)
    decreases |b|
  {
    if |b| > 0 {
      IsSubseqPrepend(c, b[1..], d);
      assert b + d == [b[0]] + (b[1..] + d);
      IsSubseqCons(c, b[1..] + d, b[0]);
    } else {
      assert b + d == d;
    }
  }

  /** Subsequences concatenate. */
  lemma {:induction false} IsSubseqConcat<T>(a: seq<T>, b: seq<T>, c: seq<T>, d: seq<T>)
    requires IsSubseq(a, b) && IsSubseq(c, d)
    ensures IsSubseq(a + c, b + d)
    decreases |b|
  {
    if |a| == 0 {
      assert a + c == c;
      IsSubseqPrepend(c, b, d);
    } else if a[0] == b[0] && IsSubseq(a[1..], b[1..]) {
      IsSubseqConcat(a[1..], b[1..], c, d);
      assert (a + c)[1..] == a[1..] + c;
      assert (b + d)[1..] == b[1..] + d;
    } else {
      IsSubseqConcat(a, b[1..], c, d);
      assert b + d == [b[0]] + (b[1..] + d);
      IsSubseqCons(a + c, b[1..] + d, b[0]);
    }
  }

  /** Flattening a subsequence of groups gives a subsequence of the flattened groups. */
  lemma {:induction false} FlattenSubseq<T>(segs: seq<seq<T>>, rs: seq<seq<T>>)
    requires IsSubseq(segs, rs)
    ensures IsSubseq(Flatten(segs), Flatten(rs))
    decreases |rs|
  {
    if |segs| == 0 {
    } else if segs[0] == rs[0] && IsSubseq(segs[1..], rs[1..]) {
      FlattenSubseq(segs[1..], rs[1..]);
      IsSubseqRefl(rs[0]);
      IsSubseqConcat(rs[0], rs[0], Flatten(segs[1..]), Flatten(rs[1..]));
    } else {
      FlattenSubseq(segs, rs[1..]);
      IsSubseqPrepend(Flatten(segs), rs[0], Flatten(rs[1..]));
    }
  }
}

=== FILE: wrappers.dfy ===
/** The optional value used wherever the JavaScript source tests for
    `null`, `undefined` or a missing field. */
module Wrappers {

  datatype Option<+T> = None | Some(value: T) {

    /** The value, or `default` when there is none (JavaScript's `??`). */
    function GetOr(default: T): T {
      match this
      case Some(v) => v
      case None => default
    }
  }
}

=== FILE: years.dfy ===
/** Small helpers of the map page and the year buckets built on them:
    `anio`, `numOrNull`, `valoresUnicos`, the marker colour of
    `marcadorPorFecha`, and the year ranges of the report pie chart and the
    canvas snapshot. */
module YearBuckets {
  import opened Wrappers
  import opened JsNum
  import opened JsText
  import Counting

  /** `String(s).slice(0, 4)`. */
  function First4(s: string): (r: string)
    ensures |r| <= 4 && r <= s
    ensures |s| >= 4 ==> |r| == 4
  {
    if |s| <= 4 then s else s[..4]
  }

  /** `anio`: the year of a date text, read by `parseInt` from its first four
      characters; `None` (null) for a missing date or one whose prefix is
      not a number. */
  function Anio(fecha: Option<string>): (y: Option<int>)
    ensures !Truthy(fecha) ==> y.None?
    ensures y.Some? ==> -10000 < y.value < 10000
  {
    if !Truthy(fecha) then None
    else
      var t := First4(fecha.value);
      Pow10Monotone(|t|, 4);
      ParseInt(t)
  }

  function Digit(c: char): int {
    c as int - '0' as int
  }

  /** An ISO date `YYYY-...` yields its four-digit year. */
  lemma AnioOfIsoDate(fecha: string)
    requires |fecha| >= 4 && AllDigits(fecha[..4])
    ensures Anio(Some(fecha)) == Some(1000 * Digit(fecha[0]) + 100 * Digit(fecha[1]) + 10 * Digit(fecha[2]) + Digit(fecha[3]))
  {
    var t := fecha[..4];
    assert Truthy(Some(fecha));
    assert First4(fecha) == t;
    DigitsParse(t);
    FourDigitsValue(t);
  }

  /** The value of four decimal digits, place by place. */
  lemma FourDigitsValue(t: string)
    requires |t| == 4 && AllDigits(t)
    ensures DigitsValue(t) == 1000 * Digit(t[0]) + 100 * Digit(t[1]) + 10 * Digit(t[2]) + Digit(t[3])
  {
    var d0, d1, d2, d3 := Digit(t[0]), Digit(t[1]), Digit(t[2]), Digit(t[3]);
    assert t[..3][..2][..1][..0] == [];
    assert t[..3][..2][..1] == t[..1];
    assert t[..3][..2] == t[..2];
    assert DigitsValue(t[..1]) == d0;
    assert DigitsValue(t[..2]) == d0 * 10 + d1;
    assert DigitsValue(t[..3]) == (d0 * 10 + d1) * 10 + d2;
    assert DigitsValue(t) == ((d0 * 10 + d1) * 10 + d2) * 10 + d3;
  }

  lemma AnioExample()
    ensures Anio(Some("2019-05-04")) == Some(2019)
    ensures Anio(Some("")) == None && Anio(None) == None
  {
    var d := "2019-05-04";
    assert d[..4] == ['2', '0', '1', '9'];
    assert AllDigits(d[..4]);
    AnioOfIsoDate(d);
  }

  /** A raw field value as `numOrNull` sees it: `null`, `undefined`, a
      text or a number. */
  datatype Raw = Null | Undefined | Text(s: string) | Number(n: Num)

  /** `Number(v)` for the values `numOrNull` converts; the conversion of
      text is supplied by the caller. */
  function ToNumber(v: Raw, parse: string -> Num): Num {
    match v
    case Null => Fin(0.0)
    case Undefined => NaN
    case Text(s) => parse(s)
    case Number(n) => n
  }

  /** `numOrNull`: the finite number a field holds; null for a missing or
      empty field and for anything `Number` turns into NaN or an infinity. */
  function NumOrNull(v: Raw, parse: string -> Num): (r: Option<real>)
    ensures r.Some? <==> v != Null && v != Undefined && v != Text("") && ToNumber(v, parse).Fin?
    ensures r.Some? ==> ToNumber(v, parse) == Fin(r.value)
  {
    if v == Text("") || v == Null || v == Undefined then None
    else
      var n := ToNumber(v, parse);
      if n.Fin? then Some(n.v) else None
  }

  /** A finite number passes through unchanged, as does text that reads as
      one; NaN and the infinities become null. */
  lemma NumOrNullKeepsFinite(x: real, s: string, parse: string -> Num)
    ensures NumOrNull(Number(Fin(x)), parse) == Some(x)
    ensures NumOrNull(Number(NaN), parse) == None
    ensures NumOrNull(Number(PosInf), parse) == None && NumOrNull(Number(NegInf), parse) == None
    ensures |s| > 0 && parse(s) == Fin(x) ==> NumOrNull(Text(s), parse) == Some(x)
    ensures |s| > 0 && !parse(s).Fin? ==> NumOrNull(Text(s), parse) == None
  {
  }

  /** Applying `numOrNull` to its own result changes nothing. */
  lemma NumOrNullIdempotent(v: Raw, parse: string -> Num)
    ensures var r := NumOrNull(v, parse);
      NumOrNull(if r.Some? then Number(Fin(r.value)) else Null, parse) == r
  {
  }

  /** `numOrNull(null)` is null even though `Number(null)` is 0, and
      `numOrNull(undefined)` is null as `Number(undefined)` is NaN. */
  lemma NullIsNotZero(parse: string -> Num)
    ensures ToNumber(Null, parse) == Fin(0.0) && NumOrNull(Null, parse) == None
    ensures ToNumber(Undefined, parse) == NaN && NumOrNull(Undefined, parse) == None
  {
  }

  predicate NoDuplicates(s: seq<string>) {
    forall i, j :: 0 <= i < j < |s| ==> s[i] != s[j]
  }

  /** `Array.from(new Set(arr.filter(Boolean)))`: the present, non-empty
      values, each once, in order of first appearance. */
  function ValoresUnicos(arr: seq<Option<string>>): (r: seq<string>)
    ensures NoDuplicates(r)
    ensures forall x :: x in r <==> Some(x) in arr && |x| > 0
    ensures |r| <= |arr|
    decreases |arr|
  {
    if |arr| == 0 then []
    else
      var init := ValoresUnicos(arr[..|arr| - 1]);
      var last := arr[|arr| - 1];
      assert forall v :: v in arr <==> v in arr[..|arr| - 1] || v == last by {
        assert arr == arr[..|arr| - 1] + [last];
      }
      if Truthy(last) && last.value !in init then init + [last.value] else init
  }

  /** The colour `marcadorPorFecha` gives a map marker. */
  datatype Marker = Azul | Verde | Rojo | Amarillo

  /** The year `marcadorPorFecha` reads: `parseInt` of the first four
      characters of `fecha ?? ""`. */
  function MarkerYear(fecha: Option<string>): Option<int> {
    ParseInt(First4(if fecha.Some? then fecha.value else ""))
  }

  /** The marker reads the same year as `anio`. */
  lemma MarkerYearIsAnio(fecha: Option<string>)
    ensures MarkerYear(fecha) == Anio(fecha)
  {
    if !Truthy(fecha) {
      assert First4(if fecha.Some? then fecha.value else "") == "";
      assert LeadingDigits("") == "";
    }
  }

  /** `marcadorPorFecha` as written: blue 2004-2010, green 2011-2017, red
      2018-2026, yellow otherwise (a missing year compares false). */
  function MarkerFor(fecha: Option<string>): (m: Marker)
    ensures m == Azul <==> Anio(fecha).Some? && 2004 <= Anio(fecha).value <= 2010
    ensures m == Verde <==> Anio(fecha).Some? && 2011 <= Anio(fecha).value <= 2017
    ensures m == Rojo <==> Anio(fecha).Some? && 2018 <= Anio(fecha).value <= 2026
    ensures m == Amarillo <==> Anio(fecha).None? || Anio(fecha).value < 2004 || Anio(fecha).value > 2026
  {
    MarkerYearIsAnio(fecha);
    var y := MarkerYear(fecha);
    if y.Some? && 2004 <= y.value <= 2010 then Azul
    else if y.Some? && 2011 <= y.value <= 2017 then Verde
    else if y.Some? && 2018 <= y.value <= 2026 then Rojo
    else Amarillo
  }

  /** The four slices of the report's pie chart. */
  datatype Tramo = T2004To2010 | T2011To2017 | T2018To2025 | Antes2004

  /** The slice a record's year falls in: the ranges of the legend, with
      everything else, a missing year included, in "Antes de 2004". */
  function TramoOf(y: Option<int>): (t: Tramo)
    ensures t == T2004To2010 <==> y.Some? && 2004 <= y.value <= 2010
    ensures t == T2011To2017 <==> y.Some? && 2011 <= y.value <= 2017
    ensures t == T2018To2025 <==> y.Some? && 2018 <= y.value <= 2025
    ensures t == Antes2004 <==> y.None? || y.value < 2004 || y.value > 2025
  {
    if y.Some? && 2004 <= y.value <= 2010 then T2004To2010
    else if y.Some? && 2011 <= y.value <= 2017 then T2011To2017
    else if y.Some? && 2018 <= y.value <= 2025 then T2018To2025
    else Antes2004
  }

  /** The marker colour that shows a slice on the map legend. */
  function TramoMarker(t: Tramo): Marker {
    match t
    case T2004To2010 => Azul
    case T2011To2017 => Verde
    case T2018To2025 => Rojo
    case Antes2004 => Amarillo
  }

  /** The pie slice colours, in the order of the slices. */
  function TramoColor(t: Tramo): string {
    match t
    case T2004To2010 => "#3f51b5"
    case T2011To2017 => "#43a047"
    case T2018To2025 => "#e53935"
    case Antes2004 => "#ffc107"
  }

  /** The dot colour of the canvas snapshot, from `anio(d.fecha)`. */
  function CanvasColor(fecha: Option<string>): string {
    var y := Anio(fecha);
    if y.Some? && 2004 <= y.value <= 2010 then "#3f51b5"
    else if y.Some? && 2011 <= y.value <= 2017 then "#43a047"
    else if y.Some? && 2018 <= y.value <= 2025 then "#e53935"
    else "#ffc107"
  }

  /** The canvas snapshot paints each record in the colour of its pie slice. */
  lemma CanvasMatchesPie(fecha: Option<string>)
    ensures CanvasColor(fecha) == TramoColor(TramoOf(Anio(fecha)))
  {
  }

  /** The counts of the four slices. */
  datatype Tramos = Tramos(t2004: nat, t2011: nat, t2018: nat, antes: nat) {
    function Total(): nat { t2004 + t2011 + t2018 + antes }
    function Get(t: Tramo): nat {
      match t
      case T2004To2010 => t2004
      case T2011To2017 => t2011
      case T2018To2025 => t2018
      case Antes2004 => antes
    }
    function Add(t: Tramo): Tramos {
      match t
      case T2004To2010 => this.(t2004 := t2004 + 1)
      case T2011To2017 => this.(t2011 := t2011 + 1)
      case T2018To2025 => this.(t2018 := t2018 + 1)
      case Antes2004 => this.(antes := antes + 1)
    }
  }

  /** The slice of every record, in order. */
  function Slices(fechas: seq<Option<string>>): (ts: seq<Tramo>)
    ensures |ts| == |fechas|
    ensures forall i :: 0 <= i < |fechas| ==> ts[i] == TramoOf(Anio(fechas[i]))
  {
    seq(|fechas|, i requires 0 <= i < |fechas| => TramoOf(Anio(fechas[i])))
  }

  /** How many records fall in slice `t`. */
  function CountIn(ts: seq<Tramo>, t: Tramo): nat
    decreases |ts|
  {
    if |ts| == 0 then 0
    else CountIn(ts[..|ts| - 1], t) + (if ts[|ts| - 1] == t then 1 else 0)
  }

  /** The `tramos` tally of the report: every record lands in exactly one
      slice, so the slices add up to the number of records shown, and each
      slice holds the records whose year falls in it. */
  function Tally(ts: seq<Tramo>): (c: Tramos)
    ensures c.Total() == |ts|
    ensures c == Tramos(CountIn(ts, T2004To2010), CountIn(ts, T2011To2017),
                        CountIn(ts, T2018To2025), CountIn(ts, Antes2004))
    decreases |ts|
  {
    if |ts| == 0 then Tramos(0, 0, 0, 0)
    else Tally(ts[..|ts| - 1]).Add(ts[|ts| - 1])
  }

  /** Each slice of the tally counts the records whose year falls in it. */
  lemma TallyGet(fechas: seq<Option<string>>, t: Tramo)
    ensures Tally(Slices(fechas)).Get(t) == CountIn(Slices(fechas), t)
    ensures Tally(Slices(fechas)).Total() == |fechas|
  {
  }

  /** The bar a record is counted under in the report's class chart:
      `d.clase_objeto || "Desconocido"`. */
  function ReportClass(clase: Option<string>): string {
    OrElse(clase, "Desconocido")
  }

  /** The bar of every record, in order. */
  function ReportClasses(clases: seq<Option<string>>): (ks: seq<string>)
    ensures |ks| == |clases|
    ensures forall i :: 0 <= i < |clases| ==> ks[i] == ReportClass(clases[i])
    decreases |clases|
  {
    if |clases| == 0 then []
    else ReportClasses(clases[..|clases| - 1]) + [ReportClass(clases[|clases| - 1])]
  }

  /** The `clases` tally of the report: one bar per class, none empty, each
      as high as the number of records of its class, and every record's
      class has a bar. */
  function ClassBars(clases: seq<Option<string>>): (bars: seq<Counting.Entry>)
    ensures Counting.DistinctKeys(bars)
    ensures forall e :: e in bars ==> e.count > 0 && e.count == Counting.Occurrences(ReportClasses(clases), e.key)
    ensures forall c :: c in clases ==> ReportClass(c) in Counting.Keys(bars)
    ensures forall e :: e in bars ==> e.key != ""
  {
    var ks := ReportClasses(clases);
    ReportClassesMembers(clases);
    Counting.TallyCounts(ks);
    Counting.Tally(ks)
  }

  /** Every record's bar is among the bars, and no bar is the empty text. */
  lemma ReportClassesMembers(clases: seq<Option<string>>)
    ensures forall c :: c in clases ==> ReportClass(c) in ReportClasses(clases)
    ensures forall k :: k in ReportClasses(clases) ==> k != ""
  {
    var ks := ReportClasses(clases);
    forall c | c in clases
      ensures ReportClass(c) in ks
    {
      var i :| 0 <= i < |clases| && clases[i] == c;
      assert ks[i] == ReportClass(c);
    }
  }

  /** Marker and slice agree on every year except 2026, which the marker
      paints red while the report counts it before 2004. */
  lemma MarkerAgreesExcept2026(fecha: Option<string>)
    requires Anio(fecha) != Some(2026)
    ensures MarkerFor(fecha) == TramoMarker(TramoOf(Anio(fecha)))
  {
  }

  /** The discrepancy: a record of 2026 is drawn red on the map, under the
      legend's "2018 a 2025", yet counted in the "Antes de 2004" slice. */
  lemma Year2026Mismatch()
    ensures MarkerFor(Some("2026-01-15")) == Rojo
    ensures TramoOf(Anio(Some("2026-01-15"))) == Antes2004
  {
    var d := "2026-01-15";
    assert d[0] == '2' && d[1] == '0' && d[2] == '2' && d[3] == '6';
    AnioOf2026(d);
  }

  /** Any date starting with "2026" is read as the year 2026. */
  lemma AnioOf2026(d: string)
    requires |d| >= 4 && d[0] == '2' && d[1] == '0' && d[2] == '2' && d[3] == '6'
    ensures Anio(Some(d)) == Some(2026)
  {
    assert Digit(d[0]) == 2 && Digit(d[1]) == 0 && Digit(d[2]) == 2 && Digit(d[3]) == 6;
    assert AllDigits(d[..4]) by {
      forall i | 0 <= i < 4
        ensures IsDigit(d[..4][i])
      {
        assert d[..4][i] == d[i];
      }
    }
    AnioOfIsoDate(d);
  }

  /** The marker with the legend's ranges: red for 2018-2025. */
  function MarkerForLegend(fecha: Option<string>): (m: Marker)
    ensures m == TramoMarker(TramoOf(Anio(fecha)))
  {
    MarkerYearIsAnio(fecha);
    var y := MarkerYear(fecha);
    if y.Some? && 2004 <= y.value <= 2010 then Azul
    else if y.Some? && 2011 <= y.value <= 2017 then Verde
    else if y.Some? && 2018 <= y.value <= 2025 then Rojo
    else Amarillo
  }

  /** With the legend's ranges, a marker's colour tells its slice: records
      with the same marker are counted in the same slice. */
  lemma LegendMarkerDeterminesSlice(a: Option<string>, b: Option<string>)
    ensures MarkerForLegend(a) == MarkerForLegend(b) <==> TramoOf(Anio(a)) == TramoOf(Anio(b))
  {
  }
}
